=== FILE: README.md ===
# PyStreamingDSP in Dafny

PyStreamingDSP is a Python 2 template for real-time audio processing. An
`AudioSession` wires a source to a sink in one of eight stream modes: the
built-in input, the built-in output, a virtual audio device, or a WAV file.
PyAudio hands each buffer to a callback, which does three things:

- it decodes the interleaved samples into a left and a right channel;
- it passes them through a processing stage, which in the template swaps the two channels;
- it encodes them back.

The callback also records the fastest and the slowest buffer. This project
models that core as pure functions over immutable datatypes, and proves what
the code promises about it.

The project has these modules:

- `Errors` (errors.dfy): `Option`, `Result`, and the Python exceptions the core raises.
- `PcmFormat` (pcm_format.dfy): the PortAudio format codes.
  - the table from codes to numpy sample types (`py_audio_format_to_numpy`);
  - the human-readable labels (`py_audio_format_desc`);
  - PyAudio's `get_format_from_width`.
- `PcmCodec` (pcm_codec.dfy): sample conversion and framing.
  - `pcm2float` and `float2pcm` on exact reals;
  - numpy's truncating and wrapping casts, written out;
  - `audio_decode` and `audio_encode`.
- `Power2` (power2.dfy): `is_power2`, which tests `n & (n - 1)`. A reference definition of the powers of two is proved equivalent to it.
- `AudioSettings` (audio_settings.dfy): settings and device checks.
  - the stream modes and their topology;
  - the default settings;
  - the device lookup;
  - `validate_stream_mode`.
- `StreamSession` (session.dfy): the session lifecycle.
  - the constructor's configuration table;
  - the `open_stream` table and its PyAudio acceptance check;
  - `close_stream`.
- `SessionCallback` (callback.dfy): the per-buffer work.
  - `__recording_callback` as a step function over the session;
  - the `__processing` stage;
  - a file-driven run of steps, with the end-to-end File2File property: the output file is the input with every frame's channels exchanged.
- `Launcher` (launch.dfy): `main` up to the running stream.
  - the option loop;
  - the choice of mode from the flags;
  - the usage table;
  - the launch of the session.

The model follows what the code does, including several things the comments
and the usage text do not say:

- **Shadowed stream modes.** The configuration, `open_stream` and `close_stream` tables each test `BuildInIn2File` and `File2BuildInOut` twice. The branches that were meant for `VD2File` and `File2VD` can therefore never run.
  - The constructor opens no file in those two modes.
  - `open_stream` raises "Unsupported stream mode!".
  - `main` never gets a stream in them (`Launcher.ShadowedModesNeverStream`).
- **BuildInIn2File.** Configuring the output file copies the input file's header. `BuildInIn2File` has no input file, so the constructor raises `AttributeError` (`Launcher.BuildInIn2FileNeverStreams`).
- **Float32 decode.** `audio_decode` on a float32 buffer converts it to int16 with `float2pcm`.
- **Float32 encode.** `audio_encode` computes `pcm2float` but discards the result. It then casts the int16 samples to float32 unscaled, so on the live path a sample of 0.5 leaves the callback as 16384.0 (`PcmCodec.LiveFrameExample`).
- **Truncation, not rounding.** `float2pcm` ends with numpy's `astype`, which truncates toward zero rather than rounding to the nearest integer; its docstring promises only the clipping to [-1.0, 1.0). The model truncates, as the code does (`PcmCodec.Trunc`, `PcmCodec.QuantizationStep`).
- **Python 2 integer division.** `/` on integers floors, so `len(signal) / channels` in `audio_decode` has these error cases:
  - a channel count of 0 raises `ZeroDivisionError`;
  - a length that is not a multiple of the channel count makes the reshape raise `ValueError`;
  - one channel makes `output[:, 1]` raise `IndexError`.

## Model

| member | source | states |
|---|---|---|
| PcmFormat.PaCode | audio_helper.py:8-24 | every sample type the table supports has a supported code that maps back to it |
| PcmFormat.SampleTypeOfFormat | audio_helper.py:8-24 | a code yields a sample type exactly when it is one of the five supported codes; Int24, custom and unknown codes each raise TypeError with the message of their own branch |
| PcmFormat.FormatDescription | audio_helper.py:26-42 | the label is "Unsupported format!" exactly for codes outside the seven known ones |
| PcmFormat.DescriptionNamesFormat | audio_helper.py:26-42 | the label of a known code reads back as that code; the label of an unknown code names no code |
| PcmFormat.DescriptionsDistinct | audio_helper.py:26-42 | distinct known codes have distinct labels |
| PcmFormat.FormatFromWidth | py_streaming_dsp.py:44 | sample widths 1 to 4 give a known format code whose samples are that many bytes wide (unsigned for one byte, float32 for four); other widths raise ValueError |
| PcmCodec.Trunc | audio_helper.py:110 | the integer cast truncates toward zero: the result lies within 1 of the value, on the side of zero |
| PcmCodec.Clip | audio_helper.py:110 | the clipped value lies in the bounds, equals the input inside them and the nearer bound outside |
| PcmCodec.Wrap | audio_helper.py:124 | an integer-to-integer cast lands in the target range, leaves in-range values unchanged, and differs from its input by a multiple of 2^bits (wrap-around, not saturation) |
| PcmCodec.ToUnit | audio_helper.py:72-75 | one in-range integer sample scales into [-1, 1) |
| PcmCodec.FromUnit | audio_helper.py:107-110 | one float sample scales into the integer range; 1.0 and above saturate to the maximum, -1.0 and below to the minimum |
| PcmCodec.UnitRoundTrip | audio_helper.py:48-110 | float2pcm undoes pcm2float on every in-range integer sample |
| PcmCodec.FromUnitError | audio_helper.py:107-110 | for a sample in [-1, 1) the scaled value before truncation differs from the integer result by less than 1 |
| PcmCodec.QuantizationStep | audio_helper.py:107-110 | pcm2float of float2pcm is within one quantisation step of the original sample, and a second float2pcm gives the same integer |
| PcmCodec.Pcm2Float | audio_helper.py:48-75 | integer input and a float dtype are required, else TypeError: "'sig' must be an array of integers" when the input is not integer, otherwise "'dtype' must be a floating point type"; each output sample is the scaled input sample and lies in [-1, 1) |
| PcmCodec.Float2Pcm | audio_helper.py:77-110 | float input and an integer dtype are required, else TypeError: "'sig' must be a float array" when the input is not float, otherwise "'dtype' must be an integer type"; each output sample is the scaled, clipped and truncated input sample, in range |
| PcmCodec.Pcm2FloatRoundTrip | audio_helper.py:48-110 | float2pcm(pcm2float(a)) == a for every in-range integer array |
| PcmCodec.Channel | audio_helper.py:116-118 | column k of the reshape has one sample per frame, the k-th of that frame |
| PcmCodec.Interleave | audio_helper.py:121 | the flattened pair alternates left and right samples frame by frame |
| PcmCodec.DecodedSamples | audio_helper.py:113-115 | a float buffer becomes int16 samples through float2pcm; an integer buffer is used as is |
| PcmCodec.AudioDecode | audio_helper.py:112-118 | decoding succeeds exactly for at least two channels and a whole number of frames; 0 channels, a partial frame and one channel raise their own errors; the two channels are samples 0 and 1 of every frame |
| PcmCodec.AsType | audio_helper.py:124 | the cast keeps the length; a float32 target holds each sample as the same real; an integer target holds each sample wrapped into that type |
| PcmCodec.AudioEncode | audio_helper.py:120-125 | channels of unequal length raise ValueError; otherwise the output interleaves them, unscaled for float32 and wrapped for integer types |
| PcmCodec.DecodeStereoInts | audio_helper.py:112-118 | decoding an integer buffer as stereo yields the two columns of its reshape |
| PcmCodec.InterleaveChannels | audio_helper.py:116-121 | interleaving the two columns of a stereo reshape gives the buffer back |
| PcmCodec.EncodeStereoInts | audio_helper.py:120-125 | encoding in-range channels to their own integer type is plain interleaving |
| PcmCodec.EncodeDecodeRoundTrip | audio_helper.py:112-125 | encoding the channels decoded from an in-range stereo integer buffer gives the buffer back |
| PcmCodec.DecodeEncodeRoundTrip | audio_helper.py:112-125 | decoding an encoded pair of in-range channels gives the channels back |
| PcmCodec.LiveRoundTripScale | audio_helper.py:112-125 | on the live float32 path each output sample is the int16 value of the input sample, not the input sample |
| PcmCodec.LiveFrameExample | audio_helper.py:112-125 | the frame (0.5, -0.25) leaves the float32 round trip as (16384.0, -8192.0) |
| Power2.IsPower2Correct | py_streaming_dsp.py:17-19 | the bit test holds exactly for the positive powers of two, and fails for 0 and negatives |
| Power2.Pow2IsPower2 | py_streaming_dsp.py:17-19 | every 2^k passes the bit test |
| AudioSettings.ModeOfCode | audio_settings.py:33-40 | exactly the codes 0 to 7 name a stream mode |
| AudioSettings.CodesDistinct | audio_settings.py:33-40 | two modes share a code only if they are the same mode |
| AudioSettings.DefaultSettingsSound | audio_settings.py:47-61 | the defaults describe a stereo 44100 Hz float32 stream whose frame size is a power of two |
| AudioSettings.DetectDeviceIndex | audio_settings.py:173-186 | the lookup gives -1 exactly when no device has the name, and otherwise a device index |
| AudioSettings.DetectFindsFirstMatch | audio_settings.py:173-186 | when devices share the name, the first one's index is returned |
| AudioSettings.DetectIdx | audio_settings.py:147-171 | each role's lookup gives -1 exactly when no device carries that role's configured name |
| AudioSettings.ValidateStreamMode | audio_settings.py:90-118 | only a code that names a stream mode can be valid |
| AudioSettings.ValidateMeansDevicesFound | audio_settings.py:90-118 | a code is valid exactly when it names a mode and every device that mode requires is found; File2File requires both built-in devices |
| StreamSession.ConfigureInputFile | py_streaming_dsp.py:41-46 | a missing input key raises KeyError; otherwise the session reads from the file's start and takes the file's format, channel count and rate |
| StreamSession.ConfigureOutputFile | py_streaming_dsp.py:48-52 | a missing output key raises KeyError, and a missing input file raises AttributeError; otherwise the output file copies the input's header and starts empty |
| StreamSession.Configure | py_streaming_dsp.py:24-89 | the modes without files, the two shadowed modes and unknown codes open nothing; File2File opens both files; File2BuildInOut opens only the input; BuildInIn2File always raises |
| StreamSession.StreamRoute | py_streaming_dsp.py:157-210 | a mode has a route exactly when it is valid and not VD2File or File2VD; output is enabled exactly for device sinks; input is enabled for device sources and for File2File; a device endpoint's role is the topology's device, and a file endpoint's role is the built-in device of its side (File2File's two, BuildInIn2File's output, File2BuildInOut's input) |
| StreamSession.File2BuildInOutQueriesBuildInInput | py_streaming_dsp.py:190-222 | File2BuildInOut validates with only the built-in output present, yet `open_stream` asks PyAudio about the built-in input; when that device is missing the query carries index -1 and decides the outcome |
| StreamSession.OpenStream | py_streaming_dsp.py:157-238 | opening succeeds exactly when the mode has a route and PyAudio accepts the session's format, channels, rate and input device; the stream is started with those parameters and nothing else changes; failures are ValueErrors |
| StreamSession.CloseSource | py_streaming_dsp.py:259-274 | closing the input file needs one and changes only its open flag |
| StreamSession.CloseSink | py_streaming_dsp.py:259-274 | closing the output file needs one and changes only its open flag |
| StreamSession.StopAndClose | py_streaming_dsp.py:242-244 | the stream ends stopped and closed, with its parameters unchanged |
| StreamSession.CloseStream | py_streaming_dsp.py:240-278 | closing succeeds exactly when PyAudio exists and the files the mode's branch closes exist (otherwise AttributeError); it stops and closes any stream; File2File closes both files, BuildInIn2File only the output, File2BuildInOut only the input, every other code neither; nothing else changes |
| StreamSession.CloseReleasesWhatConfigureOpened | py_streaming_dsp.py:240-278 | after a successful construction and open, closing succeeds, closes every file and the stream, and keeps the statistics; closing again changes nothing |
| SessionCallback.Processing | py_streaming_dsp.py:136-143 | the stage returns the same two channels of the same type |
| SessionCallback.ProcessingInvolution | py_streaming_dsp.py:136-143 | the stage exchanges left and right, so applying it twice restores the signal |
| PcmCodec.AsTypeInRange | audio_helper.py:124 | casting in-range samples to their own type changes nothing |
| SessionCallback.SwappedInterleave | audio_helper.py:121 | interleaving the right column before the left one exchanges the samples of every frame |
| SessionCallback.ProcessBufferSwapsChannels | py_streaming_dsp.py:112-114 | an in-range stereo integer buffer comes out of decode, process and encode with each frame's two samples exchanged |
| SessionCallback.ReadFrames | py_streaming_dsp.py:108-110 | reading returns the next frameCount frames from the cursor, or the rest of the file when fewer remain, advances the cursor past them, and returns nothing exactly at the end of the file; from a frame boundary of a file of whole frames it reads whole frames |
| SessionCallback.RecordElapsed | py_streaming_dsp.py:128-132 | the minimum never rises and the maximum never falls; both now bound the new time, and each is either its old value or the new time |
| SessionCallback.Callback | py_streaming_dsp.py:91-134 | a completed step only happens in a file-sourced mode, with empty output and unchanged statistics; a continued step records the time in the statistics; nothing but the input file's cursor, the output file's contents and the statistics changes, and neither file appears or disappears |
| SessionCallback.RoutingMatchesTopology | py_streaming_dsp.py:94-127 | the callback's three branches are the topology's device-to-device, file-sourced and device-to-file modes |
| SessionCallback.CallbackAppendsToSink | py_streaming_dsp.py:103-124 | File2File and the two device-to-file modes append each processed buffer to the output file |
| SessionCallback.CallbackKeepsSink | py_streaming_dsp.py:103-124 | every other mode, and the final empty read, leave the output file unchanged |
| SessionCallback.CallbackProcessesDeviceInput | py_streaming_dsp.py:94-124 | the modes with a device input output the processed device buffer, continue, and leave the input file alone |
| SessionCallback.CallbackPassesUnknownMode | py_streaming_dsp.py:125-134 | an unknown mode outputs the device buffer unchanged and continues, touching neither file |
| SessionCallback.FileSourceCallback | py_streaming_dsp.py:103-116 | in a file-sourced mode a missing input file raises AttributeError; an empty read completes the stream; otherwise the frames read are processed as int16 and returned with the cursor past them, and only File2File also appends them to the output file, which must exist |
| SessionCallback.File2BuildInOutPlaysSwapped | py_streaming_dsp.py:103-114 | File2BuildInOut sends each stereo chunk of the input file to the device with every frame's channels exchanged, advances the cursor past it and leaves the output file alone |
| SessionCallback.DriveFile | py_streaming_dsp.py:91-134 | over a run of callbacks the minimum never rises and the maximum never falls; an unfinished run's statistics bound every recorded time; nothing but the files' cursor and contents and the statistics changes |
| SessionCallback.DriveFileThenClose | py_streaming_dsp.py:240-278 | closing after a run of callbacks succeeds exactly when closing before it would, and keeps the statistics the run recorded |
| SessionCallback.DriveFileKeepsSinkHeader | py_streaming_dsp.py:115-116 | a run only appends to the output file and leaves its header alone |
| SessionCallback.File2FileStep | py_streaming_dsp.py:103-116 | a File2File callback keeps the output file equal to the channel-swapped input read so far; it completes exactly at the end of the file and otherwise consumes at least one frame |
| SessionCallback.File2FileStepAtEnd | py_streaming_dsp.py:108-110 | at the end of the input file the File2File callback completes, outputs nothing and leaves the session unchanged |
| SessionCallback.File2FileStepReads | py_streaming_dsp.py:108-116 | before the end of the input file, the File2File callback consumes at least one frame and keeps the output equal to the swapped input read so far |
| SessionCallback.File2FileRun | py_streaming_dsp.py:103-116 | a File2File run keeps that invariant, and enough callbacks bring it to completion at the end of the file |
| SessionCallback.File2FileSwapsChannels | py_streaming_dsp.py:103-116 | a stereo 16-bit input file run through File2File produces an output file with the input's header, holding exactly the input's frames with their channels exchanged |
| Launcher.ParseOptions | py_streaming_dsp.py:333-352 | the first -h or -d ends option parsing with its own outcome; otherwise -v, -a and -b set their flags exactly when given, and the last -i and -o win |
| Launcher.SelectMode | py_streaming_dsp.py:357-410 | there is no mode exactly when no file, -a or -b is given; the given files are exactly the file ends of the mode; with one file, -v selects the virtual device; without files, -a and -b select the built-in devices used |
| Launcher.UsageFlags | py_streaming_dsp.py:314-322 | each advertised command line selects the mode it advertises |
| Launcher.Launch | py_streaming_dsp.py:354-410 | the usage is shown exactly when no mode is selected, and "no devices" exactly when validation fails; a stream runs only in a validated mode other than BuildInIn2File, VD2File and File2VD; only AttributeError or ValueError can escape |
| Launcher.BuildInIn2FileNeverStreams | py_streaming_dsp.py:399-404 | "-o file" without -v never streams: the devices are missing or the constructor raises AttributeError |
| Launcher.ShadowedModesNeverStream | py_streaming_dsp.py:380-398 | "-v -i" and "-v -o" never stream: the devices are missing or open_stream rejects the mode |
| Launcher.OtherModesStream | py_streaming_dsp.py:357-410 | in the other five modes, with the devices validation requires present, a usable input width and a PyAudio that accepts the one format query `open_stream` makes, a stream runs (for File2BuildInOut that query names the built-in input, which validation does not require, so it may carry index -1) |
| Launcher.UsageLaunchesAdvertisedMode | py_streaming_dsp.py:314-322 | launching an advertised command line never shows the usage, and any stream it starts is in the advertised mode |

## Left out

- Bytes: `np.fromstring` and `tostring`. Buffers are sequences of samples, not byte strings. IEEE single-precision rounding is not modelled; floats are exact reals.
- File data: samples in an input file are read as int16 whatever its sample width, as the callback's `audio_decode(..., np.int16)` does. Other widths are not reinterpreted byte by byte.
- WAV I/O: `wave.open` reading and writing, and its errors for missing or malformed files. The opened file's contents are a parameter.
- Device enumeration: PyAudio's device enumeration and `validate_audio_setup` are parameters. `supported` stands for PyAudio's verdict on a configuration.
- `get_format_from_width`: PyAudio's own code is not among the modelled sources; `PcmFormat.FormatFromWidth` follows the width table PyAudio documents for it.
- Stream objects: the real stream objects, `PaMacCoreStreamInfo` and its `sys.exit(-1)` fallback, `p_audio.terminate()`, and what stopping or closing an already closed stream does. Closing again is treated as a no-op.
- Timing: the wall-clock time of a buffer (`elapsed_timer`) is a parameter of the callback.
- Concurrency: the polling loop of `main`, `time.sleep`, `KeyboardInterrupt`, and PyAudio calling the callback on its own thread are not modelled. An exception raised inside the callback is returned as an `Err`; what PyAudio then does with the stream is not modelled.
- Settings persistence: `serialize`, `deserialize` and `settings.json`. A settings file can override the defaults, so settings are a parameter.
- Console output: printing, `__print_stat`, `print_usage`'s text, and `-d`'s device list. `Launcher.ParseOptions` reports that -h or -d was seen.
- Exit codes and getopt: process exit codes, and getopt's own parsing and errors. Options arrive already parsed.
- Launcher.ParseOptions: an option that getopt would hand over with an unexpected spelling is not modelled; every option is one of the seven forms.
- StreamSession.OpenStream: `open_stream` creates `self.p_audio` before either of its ValueErrors, so a session whose open failed still holds a PyAudio instance; the model returns only the error and keeps no session state for it (`main` never closes after a failed open).
- StreamSession.OpenStream: the error message omits the mode number that the source appends to "Unsupported stream mode!".
- PcmCodec.AudioEncode: the exact exception numpy raises for channels of unequal length depends on the numpy version. It is modelled as ValueError.
- Channel counts are natural numbers, so a negative count is not modelled.

=== FILE: audio_settings.dfy ===
/** Stream modes, settings and device lookup of audio_settings.py. The
    enumerated device list is a parameter: it stands for what PyAudio's
    `get_device_count` / `get_device_info_by_index` report. */
module AudioSettings {
  import opened Errors
  import opened PcmFormat
  import opened Power2

  /** The eight streaming topologies, numbered 0..7 by `Code()`. */
  datatype StreamMode =
    | BuildInIn2Out
    | BuildInIn2VD
    | VD2BuildInOut
    | File2File
    | BuildInIn2File
    | File2BuildInOut
    | VD2File
    | File2VD
  {
    function Code(): (c: int)
      ensures 0 <= c < 8
      ensures ModeOfCode(c) == Some(this)
    {
      match this
      case BuildInIn2Out => 0
      case BuildInIn2VD => 1
      case VD2BuildInOut => 2
      case File2File => 3
      case BuildInIn2File => 4
      case File2BuildInOut => 5
      case VD2File => 6
      case File2VD => 7
    }
  }

  /** The mode an integer code names, if any. */
  function ModeOfCode(code: int): (m: Option<StreamMode>)
    ensures m.Some? <==> 0 <= code < 8
  {
    if code == 0 then Some(BuildInIn2Out)
    else if code == 1 then Some(BuildInIn2VD)
    else if code == 2 then Some(VD2BuildInOut)
    else if code == 3 then Some(File2File)
    else if code == 4 then Some(BuildInIn2File)
    else if code == 5 then Some(File2BuildInOut)
    else if code == 6 then Some(VD2File)
    else if code == 7 then Some(File2VD)
    else None
  }

  /** The eight modes have eight distinct codes. */
  lemma CodesDistinct(m1: StreamMode, m2: StreamMode)
    ensures m1.Code() == m2.Code() <==> m1 == m2
  {
    assert ModeOfCode(m1.Code()) == Some(m1) && ModeOfCode(m2.Code()) == Some(m2);
  }

  /** The three named devices a session can use. */
  datatype DeviceRole = BuildInInput | BuildInOutput | VirtualDevice

  /** Where a mode reads from or writes to, as the `StreamMode` class comment
      draws it. */
  datatype Endpoint = Device(role: DeviceRole) | WaveFile

  /** (source, sink) of each mode per the `StreamMode` class comment. */
  function Topology(m: StreamMode): (Endpoint, Endpoint) {
    match m
    case BuildInIn2Out => (Device(BuildInInput), Device(BuildInOutput))
    case BuildInIn2VD => (Device(BuildInInput), Device(VirtualDevice))
    case VD2BuildInOut => (Device(VirtualDevice), Device(BuildInOutput))
    case File2File => (WaveFile, WaveFile)
    case BuildInIn2File => (Device(BuildInInput), WaveFile)
    case File2BuildInOut => (WaveFile, Device(BuildInOutput))
    case VD2File => (Device(VirtualDevice), WaveFile)
    case File2VD => (WaveFile, Device(VirtualDevice))
  }

  function DevicesOf(e: Endpoint): set<DeviceRole> {
    if e.Device? then {e.role} else {}
  }

  predicate IsFileSourced(m: StreamMode) {
    Topology(m).0 == WaveFile
  }

  predicate IsFileSinked(m: StreamMode) {
    Topology(m).1 == WaveFile
  }

  /** `AudioSettings`: frame size, channel count, PortAudio format code,
      rate, and the three device names. */
  datatype Settings = Settings(
    frameSize: int,
    channels: nat,
    format: int,
    rate: int,
    buildInInputName: string,
    buildInOutputName: string,
    virtualName: string)

  /** A fresh `AudioSettings()`. */
  function DefaultSettings(): Settings {
    Settings(1024, 2, PaFloat32, 44100, "Built-in Input", "Built-in Output", "Soundflower (2ch)")
  }

  /** The defaults describe a stereo float32 stream whose frame size is a
      power of two. */
  lemma DefaultSettingsSound()
    ensures var d := DefaultSettings();
      && IsPower2(d.frameSize)
      && SampleTypeOfFormat(d.format) == Ok(Float32)
      && FormatDescription(d.format) == "32 bit float"
      && d.channels == 2 && d.rate == 44100
  {
    assert PowerOfTwo(1) && PowerOfTwo(2) && PowerOfTwo(4) && PowerOfTwo(8);
    assert PowerOfTwo(16) && PowerOfTwo(32) && PowerOfTwo(64) && PowerOfTwo(128);
    assert PowerOfTwo(256) && PowerOfTwo(512) && PowerOfTwo(1024);
    IsPower2Correct(1024);
  }

  /** One entry of the enumerated device list: `info['index']`, `info['name']`.
      PortAudio numbers its devices from 0. */
  datatype DeviceInfo = DeviceInfo(index: nat, name: string)

  /** `__detect_device_index`: scan the devices in order; the first whose
      name equals `name` gives its index, and -1 means none matched. */
  function DetectDeviceIndex(devices: seq<DeviceInfo>, name: string): (idx: int)
    ensures idx >= -1
    ensures idx == -1 <==> forall k :: 0 <= k < |devices| ==> devices[k].name != name
  {
    if |devices| == 0 then -1
    else if devices[0].name == name then devices[0].index
    else
      var rest := DetectDeviceIndex(devices[1..], name);
      assert forall k :: 1 <= k < |devices| ==> devices[k] == devices[1..][k - 1];
      rest
  }

  /** When a device matches, the result is the index of the first match;
      later devices with the same name are never consulted. */
  lemma {:induction false} DetectFindsFirstMatch(devices: seq<DeviceInfo>, name: string, k: nat)
    requires k < |devices| && devices[k].name == name
    requires forall j :: 0 <= j < k ==> devices[j].name != name
    ensures DetectDeviceIndex(devices, name) == devices[k].index
    decreases k
  {
    if k > 0 {
      assert devices[0].name != name;
      var rest := devices[1..];
      assert rest[k - 1] == devices[k];
      forall j | 0 <= j < k - 1
        ensures rest[j].name != name
      {
        assert rest[j] == devices[j + 1];
      }
      DetectFindsFirstMatch(rest, name, k - 1);
    }
  }

  /** The configured name of each device role. */
  function DeviceName(s: Settings, role: DeviceRole): string {
    match role
    case BuildInInput => s.buildInInputName
    case BuildInOutput => s.buildInOutputName
    case VirtualDevice => s.virtualName
  }

  /** `detect_build_in_input_device_idx`, `detect_build_in_output_device_idx`
      and `detect_virtual_audio_device_idx`: the one lookup, applied to the
      configured name of the role. */
  function DetectIdx(s: Settings, devices: seq<DeviceInfo>, role: DeviceRole): (idx: int)
    ensures idx >= -1
    ensures idx == -1 <==> forall k :: 0 <= k < |devices| ==> devices[k].name != DeviceName(s, role)
  {
    DetectDeviceIndex(devices, DeviceName(s, role))
  }

  /** Which devices each mode needs, read off the topology: the devices it
      reads from or writes to, except that File2File also demands both
      built-in devices although neither carries its data. */
  function RequiredRoles(m: StreamMode): set<DeviceRole> {
    if m == File2File then {BuildInInput, BuildInOutput}
    else DevicesOf(Topology(m).0) + DevicesOf(Topology(m).1)
  }

  /** Every device in `roles` is found. */
  predicate AllDetected(s: Settings, devices: seq<DeviceInfo>, roles: set<DeviceRole>) {
    forall role :: role in roles ==> DetectIdx(s, devices, role) >= 0
  }

  /** `validate_stream_mode`, branch for branch; an unknown code is never
      valid. */
  function ValidateStreamMode(s: Settings, devices: seq<DeviceInfo>, code: int): (ok: bool)
    ensures ok ==> ModeOfCode(code).Some?
  {
    var input := DetectIdx(s, devices, BuildInInput);
    var output := DetectIdx(s, devices, BuildInOutput);
    var virtual := DetectIdx(s, devices, VirtualDevice);
    if code == BuildInIn2Out.Code() then input >= 0 && output >= 0
    else if code == BuildInIn2VD.Code() then input >= 0 && virtual >= 0
    else if code == VD2BuildInOut.Code() then virtual >= 0 && output >= 0
    else if code == File2File.Code() then input >= 0 && output >= 0
    else if code == BuildInIn2File.Code() then input >= 0
    else if code == File2BuildInOut.Code() then output >= 0
    else if code == VD2File.Code() then virtual >= 0
    else if code == File2VD.Code() then virtual >= 0
    else false
  }

  lemma AllDetectedPair(s: Settings, devices: seq<DeviceInfo>, a: DeviceRole, b: DeviceRole)
    ensures AllDetected(s, devices, {a, b}) <==> DetectIdx(s, devices, a) >= 0 && DetectIdx(s, devices, b) >= 0
  {
  }

  lemma AllDetectedOne(s: Settings, devices: seq<DeviceInfo>, a: DeviceRole)
    ensures AllDetected(s, devices, {a}) <==> DetectIdx(s, devices, a) >= 0
  {
  }

  /** A code is valid exactly when it names a mode and every device that
      mode requires is found. */
  lemma ValidateMeansDevicesFound(s: Settings, devices: seq<DeviceInfo>, code: int)
    ensures ValidateStreamMode(s, devices, code) <==>
      ModeOfCode(code).Some? && AllDetected(s, devices, RequiredRoles(ModeOfCode(code).value))
  {
    if code == 0 || code == 3 {
      AllDetectedPair(s, devices, BuildInInput, BuildInOutput);
    } else if code == 1 {
      AllDetectedPair(s, devices, BuildInInput, VirtualDevice);
    } else if code == 2 {
      AllDetectedPair(s, devices, VirtualDevice, BuildInOutput);
    } else if code == 4 {
      AllDetectedOne(s, devices, BuildInInput);
    } else if code == 5 {
      AllDetectedOne(s, devices, BuildInOutput);
    } else if code == 6 || code == 7 {
      AllDetectedOne(s, devices, VirtualDevice);
    }
  }
}

=== FILE: callback.dfy ===
/** The per-buffer work of an `AudioSession` (py_streaming_dsp.py):
    `__recording_callback` as a step function over the session, the
    channel-swapping `__processing` stage, and a file-driven run of steps.
    The wall-clock time a buffer took is a parameter of the step. */
module SessionCallback {
  import opened Errors
  import opened PcmFormat
  import opened PcmCodec
  import opened AudioSettings
  import opened StreamSession

  /** The flag the callback hands back to PyAudio. */
  datatype Status = Continue | Complete

  /** `(processed_data, flag)` together with the session after the call. */
  datatype Step = Step(session: AudioSession, output: Array, status: Status)

  /** `__processing`: the reference stage returns `(right, left)`. */
  function Processing(sig: Stereo): (r: Stereo)
    ensures r.ty == sig.ty && multiset{r.left, r.right} == multiset{sig.left, sig.right}
  {
    Stereo(sig.ty, sig.right, sig.left)
  }

  /** Swapping twice restores the signal, so the stage loses nothing. */
  lemma ProcessingInvolution(sig: Stereo)
    ensures Processing(Processing(sig)) == sig
    ensures Processing(sig).left == sig.right && Processing(sig).right == sig.left
  {
  }

  /** decode -> process -> encode, as each branch of the callback does it. */
  function ProcessBuffer(data: Array, channels: nat, dtype: SampleType): Result<Array> {
    var signal :- AudioDecode(data, channels);
    AudioEncode(Processing(signal), dtype)
  }

  /** Reference for a stereo buffer with its two channels exchanged. */
  function SwapPairs(xs: seq<int>): (r: seq<int>)
    requires |xs| % 2 == 0
  {
    seq(|xs|, j requires 0 <= j < |xs| => if j % 2 == 0 then xs[j + 1] else xs[j - 1])
  }

  /** Interleaving the right channel before the left one swaps every frame. */
  lemma SwappedInterleave(xs: seq<int>)
    requires |xs| % 2 == 0
    ensures Interleave(Channel(xs, 2, 1), Channel(xs, 2, 0)) == SwapPairs(xs)
  {
    var l, r := Channel(xs, 2, 0), Channel(xs, 2, 1);
    var out, expected := Interleave(r, l), SwapPairs(xs);
    var h := |xs| / 2;
    assert |xs| == 2 * h && |l| == h && |r| == h && |out| == 2 * h;
    forall i | 0 <= i < h
      ensures out[2 * i] == expected[2 * i] && out[2 * i + 1] == expected[2 * i + 1]
    {
      assert FrameIndex(2, i, 0) == 2 * i && FrameIndex(2, i, 1) == 2 * i + 1;
      assert out[2 * i] == r[i] && out[2 * i + 1] == l[i];
      assert (2 * i) % 2 == 0 && (2 * i + 1) % 2 == 1;
    }
    FramewiseEqual(out, expected);
  }

  /** An in-range interleaved stereo buffer of an integer type comes out of
      the file path of the callback with every frame's two samples
      exchanged, and nothing else changed. */
  lemma ProcessBufferSwapsChannels(t: IntType, xs: seq<int>)
    requires InRange(t, xs) && |xs| % 2 == 0
    ensures ProcessBuffer(Ints(t, xs), 2, Integer(t)) == Ok(Ints(t, SwapPairs(xs)))
  {
    var l, r := Channel(xs, 2, 0), Channel(xs, 2, 1);
    DecodeStereoInts(t, xs);
    SwappedInterleave(xs);
    SwapPairsInRange(t, xs);
    EncodeStereoInts(Stereo(t, r, l));
  }

  /** Swapping the samples of each frame keeps them in range. */
  lemma SwapPairsInRange(t: IntType, xs: seq<int>)
    requires InRange(t, xs) && |xs| % 2 == 0
    ensures InRange(t, SwapPairs(xs))
  {
    var swapped := SwapPairs(xs);
    forall j | 0 <= j < |swapped|
      ensures t.Min() <= swapped[j] <= t.Max()
    {
      if j % 2 == 0 { assert swapped[j] == xs[j + 1]; } else { assert swapped[j] == xs[j - 1]; }
    }
  }

  /** `readframes(frame_count)`: up to `frameCount` frames from the cursor;
      an empty result means the file is exhausted. */
  function ReadFrames(src: WaveSource, frameCount: nat): (r: (seq<int>, WaveSource))
    ensures |r.0| <= frameCount * src.file.nchannels
    ensures r.1 == src.(cursor := r.1.cursor)
    ensures src.cursor <= |src.file.data| ==>
      && r.1.cursor == src.cursor + |r.0| <= |src.file.data|
      && r.0 == src.file.data[src.cursor..r.1.cursor]
      && (|r.0| == 0 <==> src.cursor == |src.file.data| || frameCount * src.file.nchannels == 0)
    // a full request when enough samples remain, otherwise the rest of the file
    ensures src.cursor <= |src.file.data| ==>
      |r.0| == if src.cursor + frameCount * src.file.nchannels <= |src.file.data|
               then frameCount * src.file.nchannels else |src.file.data| - src.cursor
    // from a frame boundary of a file of whole frames, only whole frames are read
    ensures (src.cursor <= |src.file.data| && 0 < src.file.nchannels &&
             src.cursor % src.file.nchannels == 0 && |src.file.data| % src.file.nchannels == 0) ==>
      |r.0| % src.file.nchannels == 0 && r.1.cursor % src.file.nchannels == 0
  {
    var data := src.file.data;
    var n := src.file.nchannels;
    var start := if src.cursor <= |data| then src.cursor else |data|;
    var want := frameCount * n;
    var stop := if start + want <= |data| then start + want else |data|;
    var r := (data[start..stop], src.(cursor := stop));
    if src.cursor <= |data| && 0 < n && start % n == 0 && |data| % n == 0 then
      WholeFrames(n, start, stop, frameCount, |data|); r
    else r
  }

  /** Frame arithmetic behind `ReadFrames`: stopping after whole frames, or
      at the end of a file of whole frames, stays on a frame boundary. */
  lemma WholeFrames(n: nat, start: nat, stop: nat, frames: nat, size: nat)
    requires 0 < n && start <= stop && start % n == 0 && size % n == 0
    requires stop == start + frames * n || stop == size
    ensures (stop - start) % n == 0 && stop % n == 0
  {
    var a, b := start / n, size / n;
    assert start == n * a && size == n * b;
    if stop == start + frames * n {
      assert stop - start == n * frames;
      MultipleMod(n, frames);
      assert stop == n * (a + frames);
      MultipleMod(n, a + frames);
    } else {
      assert stop - start == n * (b - a);
      MultipleMod(n, b - a);
      MultipleMod(n, b);
    }
  }

  /** The statistics after a buffer that took `elapsed` seconds. */
  function RecordElapsed(s: AudioSession, elapsed: real): (r: AudioSession)
    ensures r.minElapsed <= s.minElapsed && r.minElapsed <= elapsed
    ensures r.minElapsed == s.minElapsed || r.minElapsed == elapsed
    ensures r.maxElapsed >= s.maxElapsed && r.maxElapsed >= elapsed
    ensures r.maxElapsed == s.maxElapsed || r.maxElapsed == elapsed
    ensures r.(minElapsed := s.minElapsed, maxElapsed := s.maxElapsed) == s
  {
    var s1 := if elapsed < s.minElapsed then s.(minElapsed := elapsed) else s;
    if elapsed > s1.maxElapsed then s1.(maxElapsed := elapsed) else s1
  }

  /** `writeframes`: the buffer is appended to the output file. */
  function WriteFrames(s: AudioSession, out: Array): Result<AudioSession> {
    match s.sink
    case None => Err(AttributeError("output_wave_file"))
    case Some(sink) => Ok(s.(sink := Some(sink.(chunks := sink.chunks + [out]))))
  }

  // The callback's three routing groups, on the raw mode code.
  predicate IsLiveCode(mode: int) {
    mode in {BuildInIn2Out.Code(), BuildInIn2VD.Code(), VD2BuildInOut.Code()}
  }

  predicate IsFileSourceCode(mode: int) {
    mode in {File2File.Code(), File2BuildInOut.Code(), File2VD.Code()}
  }

  predicate IsDeviceToFileCode(mode: int) {
    mode in {BuildInIn2File.Code(), VD2File.Code()}
  }

  /** The callback's routing groups are the topology's: device to device,
      file-sourced, and device to file. */
  lemma RoutingMatchesTopology(c: int)
    ensures IsLiveCode(c) <==>
      ModeOfCode(c).Some? && !IsFileSourced(ModeOfCode(c).value) && !IsFileSinked(ModeOfCode(c).value)
    ensures IsFileSourceCode(c) <==> ModeOfCode(c).Some? && IsFileSourced(ModeOfCode(c).value)
    ensures IsDeviceToFileCode(c) <==>
      ModeOfCode(c).Some? && !IsFileSourced(ModeOfCode(c).value) && IsFileSinked(ModeOfCode(c).value)
  {
  }

  /** `__recording_callback(in_data, frame_count, ...)`. Live-input modes
      decode the device buffer as float32 with the configured channel count
      and encode back to float32; file-sourced modes read and decode int16
      frames from the input file, ending the stream on an empty read; File2File
      and the two device-to-file modes append the result to the output file;
      an unknown mode passes its input through. Every buffer except the final
      empty read updates the min/max statistics. */
  function Callback(s: AudioSession, inData: seq<real>, frameCount: nat, elapsed: real): (r: Result<Step>)
    ensures r.Ok? ==> r.value.session.minElapsed <= s.minElapsed && r.value.session.maxElapsed >= s.maxElapsed
    ensures r.Ok? && r.value.status == Complete ==>
      && IsFileSourceCode(s.mode)
      && r.value.output.Length() == 0
      && r.value.session.minElapsed == s.minElapsed && r.value.session.maxElapsed == s.maxElapsed
    ensures r.Ok? && r.value.status == Continue ==>
      && r.value.session.minElapsed <= elapsed <= r.value.session.maxElapsed
      && (r.value.session.minElapsed == s.minElapsed || r.value.session.minElapsed == elapsed)
      && (r.value.session.maxElapsed == s.maxElapsed || r.value.session.maxElapsed == elapsed)
    // only the input file's cursor, the output file's contents and the
    // statistics change; neither file appears or disappears
    ensures r.Ok? ==>
      && var t := r.value.session;
      && t == s.(source := t.source, sink := t.sink, minElapsed := t.minElapsed, maxElapsed := t.maxElapsed)
      && t.source.Some? == s.source.Some? && t.sink.Some? == s.sink.Some?
  {
    var mode := s.mode;
    if IsLiveCode(mode) then
      var out :- ProcessBuffer(Floats(inData), s.settings.channels, Float32);
      Ok(Step(RecordElapsed(s, elapsed), out, Continue))
    else if IsFileSourceCode(mode) then
      match s.source
      case None => Err(AttributeError("file_source"))
      case Some(src) =>
        var (chunk, src') := ReadFrames(src, frameCount);
        var s1 := s.(source := Some(src'));
        if |chunk| == 0 then
          Ok(Step(s1, Ints(Int16, chunk), Complete))
        else
          var out :- ProcessBuffer(Ints(Int16, chunk), src.file.nchannels, Integer(Int16));
          var s2 :- if mode == File2File.Code() then WriteFrames(s1, out) else Ok(s1);
          Ok(Step(RecordElapsed(s2, elapsed), out, Continue))
    else if IsDeviceToFileCode(mode) then
      var out :- ProcessBuffer(Floats(inData), s.settings.channels, Float32);
      var s1 :- WriteFrames(s, out);
      Ok(Step(RecordElapsed(s1, elapsed), out, Continue))
    else
      Ok(Step(RecordElapsed(s, elapsed), Floats(inData), Continue))
  }

  /** File2File and the two device-to-file modes append each processed
      buffer to the output file. */
  lemma CallbackAppendsToSink(s: AudioSession, inData: seq<real>, frameCount: nat, elapsed: real)
    requires Callback(s, inData, frameCount, elapsed).Ok?
    requires s.mode == File2File.Code() || IsDeviceToFileCode(s.mode)
    ensures var st := Callback(s, inData, frameCount, elapsed).value;
      st.status == Continue ==>
        s.sink.Some? && st.session.sink == Some(s.sink.value.(chunks := s.sink.value.chunks + [st.output]))
  {
    if s.mode == File2File.Code() {
      FileSourceCallback(s, inData, frameCount, elapsed);
    }
  }

  /** Every other mode, and the final empty read, leave the output file
      alone. */
  lemma CallbackKeepsSink(s: AudioSession, inData: seq<real>, frameCount: nat, elapsed: real)
    requires Callback(s, inData, frameCount, elapsed).Ok?
    ensures var st := Callback(s, inData, frameCount, elapsed).value;
      st.status == Complete || !(s.mode == File2File.Code() || IsDeviceToFileCode(s.mode)) ==>
        st.session.sink == s.sink
  {
  }

  /** The modes with a device input process the device buffer and leave the
      input file alone. */
  lemma CallbackProcessesDeviceInput(s: AudioSession, inData: seq<real>, frameCount: nat, elapsed: real)
    requires Callback(s, inData, frameCount, elapsed).Ok?
    requires IsLiveCode(s.mode) || IsDeviceToFileCode(s.mode)
    ensures var st := Callback(s, inData, frameCount, elapsed).value;
      && ProcessBuffer(Floats(inData), s.settings.channels, Float32) == Ok(st.output)
      && st.session.source == s.source
      && st.status == Continue
  {
  }

  /** An unknown mode passes the device buffer through and continues. */
  lemma CallbackPassesUnknownMode(s: AudioSession, inData: seq<real>, frameCount: nat, elapsed: real)
    requires ModeOfCode(s.mode).None?
    ensures Callback(s, inData, frameCount, elapsed).Ok?
    ensures var st := Callback(s, inData, frameCount, elapsed).value;
      st.output == Floats(inData) && st.status == Continue
      && st.session.source == s.source && st.session.sink == s.sink
  {
  }

  /** The file-sourced branch (File2File, File2BuildInOut, and the
      unreachable File2VD): without an input file the callback raises;
      otherwise it reads the next frames, stops on an empty read, and else
      processes them as int16 and returns the result to the stream. Only
      File2File also appends it to the output file, which must exist. The
      device buffer is ignored. */
  lemma FileSourceCallback(s: AudioSession, inData: seq<real>, frameCount: nat, elapsed: real)
    requires IsFileSourceCode(s.mode)
    ensures s.source.None? ==> Callback(s, inData, frameCount, elapsed) == Err(AttributeError("file_source"))
    ensures s.source.Some? ==>
      var (chunk, src') := ReadFrames(s.source.value, frameCount);
      var r := Callback(s, inData, frameCount, elapsed);
      && (|chunk| == 0 ==> r == Ok(Step(s.(source := Some(src')), Ints(Int16, chunk), Complete)))
      && (|chunk| != 0 ==>
            var p := ProcessBuffer(Ints(Int16, chunk), s.source.value.file.nchannels, Integer(Int16));
            && (r.Ok? <==> p.Ok? && (s.mode == File2File.Code() ==> s.sink.Some?))
            && (r.Ok? ==>
                  && r.value.status == Continue && r.value.output == p.value
                  && r.value.session.source == Some(src')
                  && r.value.session.sink ==
                       if s.mode == File2File.Code()
                       then Some(s.sink.value.(chunks := s.sink.value.chunks + [p.value]))
                       else s.sink))
  {
  }

  /** File2BuildInOut plays the input file with its channels exchanged: a
      stereo in-range chunk read from the file reaches the output device
      with every frame's two samples swapped, and the cursor moves past it. */
  lemma File2BuildInOutPlaysSwapped(s: AudioSession, inData: seq<real>, frameCount: nat, elapsed: real)
    requires s.mode == File2BuildInOut.Code() && s.source.Some?
    requires s.source.value.file.nchannels == 2
    requires InRange(Int16, s.source.value.file.data)
    requires s.source.value.cursor < |s.source.value.file.data|
    requires |s.source.value.file.data| % 2 == 0 && s.source.value.cursor % 2 == 0
    requires 0 < frameCount
    ensures var (chunk, src') := ReadFrames(s.source.value, frameCount);
      && 0 < |chunk|
      && src'.cursor == s.source.value.cursor + |chunk|
      && Callback(s, inData, frameCount, elapsed).Ok?
      && var st := Callback(s, inData, frameCount, elapsed).value;
      && st.status == Continue
      && st.output == Ints(Int16, SwapPairs(chunk))
      && st.session.source == Some(src')
      && st.session.sink == s.sink
  {
    var src := s.source.value;
    FileSourceCallback(s, inData, frameCount, elapsed);
    var (chunk, src') := ReadFrames(src, frameCount);
    InRangeSlice(Int16, src.file.data, src.cursor, src'.cursor);
    ProcessBufferSwapsChannels(Int16, chunk);
  }

  /** Callbacks for a file-sourced session, one per entry of `times` (the
      elapsed time of each buffer), until the callback reports completion or
      the times run out. File modes ignore the device buffer. The flag says
      whether the run completed. */
  function DriveFile(s: AudioSession, frameCount: nat, times: seq<real>): (r: Result<(AudioSession, bool)>)
    ensures r.Ok? ==> r.value.0.minElapsed <= s.minElapsed && r.value.0.maxElapsed >= s.maxElapsed
    ensures r.Ok? ==> forall k :: 0 <= k < |times| && !r.value.1 ==> r.value.0.minElapsed <= times[k] <= r.value.0.maxElapsed
    ensures r.Ok? ==>
      && var t := r.value.0;
      && t == s.(source := t.source, sink := t.sink, minElapsed := t.minElapsed, maxElapsed := t.maxElapsed)
      && t.source.Some? == s.source.Some? && t.sink.Some? == s.sink.Some?
    decreases |times|
  {
    if |times| == 0 then Ok((s, false))
    else
      var step :- Callback(s, [], frameCount, times[0]);
      if step.status == Complete then Ok((step.session, true))
      else
        var rest :- DriveFile(step.session, frameCount, times[1..]);
        assert forall k :: 1 <= k < |times| ==> times[k] == times[1..][k - 1];
        Ok(rest)
  }

  ghost predicate AllInt16(chunks: seq<Array>) {
    forall k :: 0 <= k < |chunks| ==> chunks[k].Ints? && chunks[k].ty == Int16
  }

  /** The samples of the output file, buffer after buffer. */
  ghost function WrittenSamples(chunks: seq<Array>): seq<int>
    requires AllInt16(chunks)
  {
    if |chunks| == 0 then [] else WrittenSamples(chunks[..|chunks| - 1]) + chunks[|chunks| - 1].xs
  }

  lemma EvenShift(j: int, n: int)
    requires n % 2 == 0
    ensures (j - n) % 2 == j % 2
  {
    var h := n / 2;
    assert n == 2 * h;
  }

  lemma {:induction false} SwapPairsAppend(a: seq<int>, b: seq<int>)
    requires |a| % 2 == 0 && |b| % 2 == 0
    ensures SwapPairs(a + b) == SwapPairs(a) + SwapPairs(b)
  {
    var ab := a + b;
    var l, sa, sb := SwapPairs(ab), SwapPairs(a), SwapPairs(b);
    var r := sa + sb;
    forall j | 0 <= j < |ab|
      ensures l[j] == r[j]
    {
      if j < |a| {
        if j % 2 == 0 {
          assert j + 1 < |a|;
          assert l[j] == ab[j + 1] == a[j + 1] == sa[j];
        } else {
          assert l[j] == ab[j - 1] == a[j - 1] == sa[j];
        }
      } else {
        var k := j - |a|;
        EvenShift(j, |a|);
        if j % 2 == 0 {
          assert k + 1 < |b|;
          assert l[j] == ab[j + 1] == b[k + 1] == sb[k];
        } else {
          assert l[j] == ab[j - 1] == b[k - 1] == sb[k];
        }
        assert r[j] == sb[k];
      }
    }
    assert l == r;
  }

  /** A File2File session part-way through a stereo 16-bit input file: the
      output file holds the frames read so far with their channels swapped. */
  ghost predicate File2FileProgress(s: AudioSession, data: seq<int>) {
    && s.mode == File2File.Code()
    && s.source.Some? && s.sink.Some?
    && s.source.value.file.nchannels == 2
    && s.source.value.file.data == data
    && |data| % 2 == 0 && InRange(Int16, data)
    && s.source.value.cursor % 2 == 0 && s.source.value.cursor <= |data|
    && AllInt16(s.sink.value.chunks)
    && WrittenSamples(s.sink.value.chunks) == SwapPairs(data[..s.source.value.cursor])
  }

  /** One File2File callback keeps the progress invariant; it completes
      exactly when the whole file has been read, and otherwise consumes at
      least one frame. */
  lemma File2FileStep(s: AudioSession, data: seq<int>, frameCount: nat, elapsed: real)
    requires File2FileProgress(s, data) && frameCount >= 1
    ensures Callback(s, [], frameCount, elapsed).Ok?
    ensures var st := Callback(s, [], frameCount, elapsed).value;
      && File2FileProgress(st.session, data)
      && (st.status == Complete <==> s.source.value.cursor == |data|)
      && (st.status == Continue ==> st.session.source.value.cursor >= s.source.value.cursor + 2)
  {
    if s.source.value.cursor == |data| {
      File2FileStepAtEnd(s, data, frameCount, elapsed);
    } else {
      File2FileStepReads(s, data, frameCount, elapsed);
    }
  }

  /** At the end of the input file the callback completes and changes
      nothing but the (unmoved) cursor. */
  lemma File2FileStepAtEnd(s: AudioSession, data: seq<int>, frameCount: nat, elapsed: real)
    requires File2FileProgress(s, data) && s.source.value.cursor == |data|
    ensures Callback(s, [], frameCount, elapsed) == Ok(Step(s, Ints(Int16, []), Complete))
  {
    FileSourceCallback(s, [], frameCount, elapsed);
    assert ReadFrames(s.source.value, frameCount).1 == s.source.value;
  }

  /** Before the end, the callback consumes at least one frame and writes it
      swapped, keeping the progress invariant. */
  lemma File2FileStepReads(s: AudioSession, data: seq<int>, frameCount: nat, elapsed: real)
    requires File2FileProgress(s, data) && frameCount >= 1 && s.source.value.cursor < |data|
    ensures Callback(s, [], frameCount, elapsed).Ok?
    ensures var st := Callback(s, [], frameCount, elapsed).value;
      && File2FileProgress(st.session, data)
      && st.status == Continue
      && st.session.source.value.cursor >= s.source.value.cursor + 2
  {
    FileSourceCallback(s, [], frameCount, elapsed);
    var src := s.source.value;
    var c := src.cursor;
    var (chunk, src') := ReadFrames(src, frameCount);
    var stop := src'.cursor;
    assert chunk == data[c..stop] && |chunk| != 0;
    InRangeSlice(Int16, data, c, stop);
    ProcessBufferSwapsChannels(Int16, chunk);
    WrittenAfterAppend(data, c, stop, s.sink.value.chunks);
  }

  lemma InRangeSlice(t: IntType, xs: seq<int>, lo: nat, hi: nat)
    requires InRange(t, xs) && lo <= hi <= |xs|
    ensures InRange(t, xs[lo..hi])
  {
    forall i | 0 <= i < hi - lo
      ensures t.Min() <= xs[lo..hi][i] <= t.Max()
    {
      assert xs[lo..hi][i] == xs[lo + i];
    }
  }

  /** Appending the swapped next slice keeps the output equal to the swapped
      prefix read so far. */
  lemma WrittenAfterAppend(data: seq<int>, c: nat, stop: nat, chunks: seq<Array>)
    requires c <= stop <= |data| && c % 2 == 0 && stop % 2 == 0
    requires AllInt16(chunks) && WrittenSamples(chunks) == SwapPairs(data[..c])
    ensures var chunks' := chunks + [Ints(Int16, SwapPairs(data[c..stop]))];
      AllInt16(chunks') && WrittenSamples(chunks') == SwapPairs(data[..stop])
  {
    var chunk := data[c..stop];
    var chunks' := chunks + [Ints(Int16, SwapPairs(chunk))];
    assert chunks'[..|chunks'| - 1] == chunks;
    assert data[..stop] == data[..c] + chunk;
    SwapPairsAppend(data[..c], chunk);
  }

  /** Driving a File2File session with at least one time per input frame
      plus one runs it to completion, and the output file then holds the
      whole input with the channels of every frame swapped. */
  lemma {:induction false} File2FileRun(s: AudioSession, data: seq<int>, frameCount: nat, times: seq<real>)
    requires File2FileProgress(s, data) && frameCount >= 1
    ensures DriveFile(s, frameCount, times).Ok?
    ensures File2FileProgress(DriveFile(s, frameCount, times).value.0, data)
    ensures DriveFile(s, frameCount, times).value.1 ==>
      DriveFile(s, frameCount, times).value.0.source.value.cursor == |data|
    ensures 2 * |times| > |data| - s.source.value.cursor ==> DriveFile(s, frameCount, times).value.1
    decreases |times|
  {
    if |times| > 0 {
      File2FileStep(s, data, frameCount, times[0]);
      var st := Callback(s, [], frameCount, times[0]).value;
      if st.status == Continue {
        File2FileRun(st.session, data, frameCount, times[1..]);
      }
    }
  }

  /** The end-to-end File2File scenario: a stereo 16-bit input file, read
      from the start with the swapping stage, yields an output file with the
      input's header and, once the run completes, exactly the input's frames
      with left and right exchanged. */
  lemma File2FileSwapsChannels(settings: Settings, file: WaveFileData, path: string, frameCount: nat, times: seq<real>)
    requires file.nchannels == 2 && file.sampWidth == 2
    requires |file.data| % 2 == 0 && InRange(Int16, file.data)
    requires frameCount >= 1 && 2 * |times| > |file.data|
    ensures Configure(File2File.Code(), settings, Some(file), Some(path)).Ok?
    ensures var run := DriveFile(Configure(File2File.Code(), settings, Some(file), Some(path)).value, frameCount, times);
      && run.Ok? && run.value.1 && run.value.0.sink.Some?
      && var sink := run.value.0.sink.value;
      && sink.nchannels == 2 && sink.sampWidth == 2 && sink.frameRate == file.frameRate
      && AllInt16(sink.chunks)
      && WrittenSamples(sink.chunks) == SwapPairs(file.data)
  {
    var s := Configure(File2File.Code(), settings, Some(file), Some(path)).value;
    assert file.data[..0] == [];
    assert SwapPairs([]) == [];
    assert File2FileProgress(s, file.data);
    File2FileRun(s, file.data, frameCount, times);
    var s' := DriveFile(s, frameCount, times).value.0;
    assert file.data[..|file.data|] == file.data;
    assert s'.sink.value.(chunks := s.sink.value.chunks) == s.sink.value by {
      DriveFileKeepsSinkHeader(s, frameCount, times);
    }
  }

  /** A run leaves what `close_stream` depends on alone: closing after the
      run succeeds exactly when closing before it would, and keeps the
      statistics the run recorded. */
  lemma DriveFileThenClose(s: AudioSession, frameCount: nat, times: seq<real>)
    requires DriveFile(s, frameCount, times).Ok?
    ensures var run := DriveFile(s, frameCount, times).value.0;
      && (CloseStream(run).Ok? <==> CloseStream(s).Ok?)
      && (CloseStream(run).Ok? ==>
            CloseStream(run).value.minElapsed == run.minElapsed
            && CloseStream(run).value.maxElapsed == run.maxElapsed)
  {
  }

  /** A run only ever appends to the output file; its header stays. */
  lemma {:induction false} DriveFileKeepsSinkHeader(s: AudioSession, frameCount: nat, times: seq<real>)
    requires DriveFile(s, frameCount, times).Ok?
    ensures var s' := DriveFile(s, frameCount, times).value.0;
      && s'.sink.Some? == s.sink.Some?
      && (s.sink.Some? ==> s'.sink.value.(chunks := s.sink.value.chunks) == s.sink.value)
    decreases |times|
  {
    if |times| > 0 {
      var st := Callback(s, [], frameCount, times[0]).value;
      CallbackKeepsSink(s, [], frameCount, times[0]);
      if st.status == Continue && (s.mode == File2File.Code() || IsDeviceToFileCode(s.mode)) {
        CallbackAppendsToSink(s, [], frameCount, times[0]);
      }
      if st.status == Continue {
        DriveFileKeepsSinkHeader(st.session, frameCount, times[1..]);
      }
    }
  }
}

=== FILE: errors.dfy ===
/** Failure-compatible wrappers and the Python exceptions the modelled code
    can raise. A raised exception becomes an `Err`; the caller that does not
    catch it propagates it with `:-`. */
module Errors {

  datatype Option<+T> = None | Some(value: T)

  /** The exceptions raised by the modelled code, carrying the message the
      source passes to them where it passes one. */
  datatype Error =
    | TypeError(message: string)
    | ValueError(message: string)
    | KeyError(key: string)
    | AttributeError(name: string)
    | IndexError
    | ZeroDivisionError

  datatype Result<+T> = Ok(value: T) | Err(error: Error) {

    predicate IsFailure() {
      Err?
    }

    function PropagateFailure<U>(): Result<U>
      requires Err?
    {
      Err(error)
    }

    function Extract(): T
      requires Ok?
    {
      value
    }
  }
}

=== FILE: launch.dfy ===
/** The command line of py_streaming_dsp.py: the option loop of `main`, the
    choice of a stream mode from the flags it leaves, and the launch of a
    session in that mode. The devices, the opened input file and PyAudio's
    verdict on a stream configuration are parameters. */
module Launcher {
  import opened Errors
  import opened AudioSettings
  import opened StreamSession

  /** One option as `getopt` returns it for "hdvabi:o:" with the long forms
      "ifile=" and "ofile=", which mean the same as -i and -o. */
  datatype Opt =
    | Help                // -h
    | ListDevices         // -d
    | Virtual             // -v
    | UseBuildInInput     // -a
    | UseBuildInOutput    // -b
    | InFile(path: string)   // -i, --ifile
    | OutFile(path: string)  // -o, --ofile
  {
    /** The options that end `main` on the spot. */
    predicate Exits() {
      Help? || ListDevices?
    }
  }

  /** The locals of `main` once the option loop has run. */
  datatype CliFlags = CliFlags(
    inFile: string,
    outFile: string,
    useVirtual: bool,
    useBuildInInput: bool,
    useBuildInOutput: bool)

  /** The option loop either exits early (printing the usage or the device
      list) or leaves the flags. */
  datatype ParseOutcome = PrintHelp | PrintDevices | Flags(flags: CliFlags)

  /** Whether `o` is an -i option (`isIn`) or an -o option (`!isIn`). */
  predicate Sets(o: Opt, isIn: bool) {
    if isIn then o.InFile? else o.OutFile?
  }

  /** `path` is what the last of the first `n` options of the given kind
      left behind: the argument of the last such option, or the initial
      empty string when there is none. */
  predicate LastPath(opts: seq<Opt>, n: nat, isIn: bool, path: string)
    requires n <= |opts|
  {
    || (exists k :: 0 <= k < n && Sets(opts[k], isIn) && opts[k].path == path
          && forall j :: k < j < n ==> !Sets(opts[j], isIn))
    || (path == "" && forall k :: 0 <= k < n ==> !Sets(opts[k], isIn))
  }

  /** One more option keeps `LastPath` true, with the option's argument if
      it is of the kind. */
  lemma LastPathStep(opts: seq<Opt>, n: nat, isIn: bool, path: string)
    requires n < |opts| && LastPath(opts, n, isIn, path)
    ensures LastPath(opts, n + 1, isIn, if Sets(opts[n], isIn) then opts[n].path else path)
  {
    if !Sets(opts[n], isIn) {
      if path == "" && forall k :: 0 <= k < n ==> !Sets(opts[k], isIn) {
      } else {
        var k :| 0 <= k < n && Sets(opts[k], isIn) && opts[k].path == path
          && forall j :: k < j < n ==> !Sets(opts[j], isIn);
        assert forall j :: k < j < n + 1 ==> !Sets(opts[j], isIn);
      }
    }
  }

  /** The option loop of `main`. The first -h or -d ends it; otherwise each
      of -v, -a and -b sets its flag and the last -i and -o win. */
  method ParseOptions(opts: seq<Opt>) returns (r: ParseOutcome)
    ensures r.Flags? <==> forall k :: 0 <= k < |opts| ==> !opts[k].Exits()
    ensures !r.Flags? ==>
      exists k :: (0 <= k < |opts| && opts[k].Exits()
        && (r.PrintHelp? <==> opts[k].Help?)
        && forall j :: 0 <= j < k ==> !opts[j].Exits())
    ensures r.Flags? ==>
      && LastPath(opts, |opts|, true, r.flags.inFile)
      && LastPath(opts, |opts|, false, r.flags.outFile)
      && (r.flags.useVirtual <==> Virtual in opts)
      && (r.flags.useBuildInInput <==> UseBuildInInput in opts)
      && (r.flags.useBuildInOutput <==> UseBuildInOutput in opts)
  {
    var f := CliFlags("", "", false, false, false);
    var i := 0;
    while i < |opts|
      invariant 0 <= i <= |opts|
      invariant forall k :: 0 <= k < i ==> !opts[k].Exits()
      invariant LastPath(opts, i, true, f.inFile)
      invariant LastPath(opts, i, false, f.outFile)
      invariant f.useVirtual <==> Virtual in opts[..i]
      invariant f.useBuildInInput <==> UseBuildInInput in opts[..i]
      invariant f.useBuildInOutput <==> UseBuildInOutput in opts[..i]
    {
      var o := opts[i];
      assert opts[..i + 1] == opts[..i] + [o];
      LastPathStep(opts, i, true, f.inFile);
      LastPathStep(opts, i, false, f.outFile);
      match o {
        case Help =>
          return PrintHelp;
        case ListDevices =>
          return PrintDevices;
        case Virtual =>
          f := f.(useVirtual := true);
        case UseBuildInInput =>
          f := f.(useBuildInInput := true);
        case UseBuildInOutput =>
          f := f.(useBuildInOutput := true);
        case InFile(p) =>
          f := f.(inFile := p);
        case OutFile(p) =>
          f := f.(outFile := p);
      }
      i := i + 1;
    }
    assert opts[..i] == opts;
    return Flags(f);
  }

  /** The mode `main` chooses from the flags, branch for branch; `None` is
      the branch that prints the usage. Python's `not in_file` is the empty
      string test. */
  function SelectMode(f: CliFlags): (m: Option<StreamMode>)
    // only a run with neither files nor -a/-b has no mode
    ensures m.None? <==> f.inFile == "" && f.outFile == "" && !f.useBuildInInput && !f.useBuildInOutput
    // files given are exactly the file ends of the mode
    ensures m.Some? ==>
      && (f.inFile != "" <==> IsFileSourced(m.value))
      && (f.outFile != "" <==> IsFileSinked(m.value))
    // with one file, -v picks the virtual device for the other end; with
    // two files it is ignored
    ensures m.Some? && (f.inFile == "") != (f.outFile == "") ==>
      (f.useVirtual <==> VirtualDevice in RequiredRoles(m.value))
    // without files, -a and -b name the built-in devices used, and the
    // virtual device takes the other end
    ensures m.Some? && f.inFile == "" && f.outFile == "" ==>
      && (f.useBuildInInput <==> Topology(m.value).0 == Device(BuildInInput))
      && (f.useBuildInOutput <==> Topology(m.value).1 == Device(BuildInOutput))
  {
    if f.inFile == "" && f.outFile == "" then
      if f.useBuildInInput && f.useBuildInOutput then Some(BuildInIn2Out)
      else if f.useBuildInInput && !f.useBuildInOutput then Some(BuildInIn2VD)
      else if f.useBuildInOutput && !f.useBuildInInput then Some(VD2BuildInOut)
      else None
    else if f.inFile != "" && f.outFile == "" then
      if f.useVirtual then Some(File2VD) else Some(File2BuildInOut)
    else if f.outFile != "" && f.inFile == "" then
      if f.useVirtual then Some(VD2File) else Some(BuildInIn2File)
    else Some(File2File)
  }

  /** The "Use cases" of `print_usage`: the command line it gives for each
      mode (numbered there from 1), with "infile.wav" and "outfile.wav" as
      the files. Each line selects the mode it advertises. */
  function UsageFlags(m: StreamMode): (f: CliFlags)
    ensures SelectMode(f) == Some(m)
  {
    match m
    case BuildInIn2Out => CliFlags("", "", false, true, true)
    case BuildInIn2VD => CliFlags("", "", false, true, false)
    case VD2BuildInOut => CliFlags("", "", false, false, true)
    case File2File => CliFlags("infile.wav", "outfile.wav", false, false, false)
    case BuildInIn2File => CliFlags("", "outfile.wav", false, false, false)
    case File2BuildInOut => CliFlags("infile.wav", "", false, false, false)
    case VD2File => CliFlags("", "outfile.wav", true, false, false)
    case File2VD => CliFlags("infile.wav", "", true, false, false)
  }

  /** How `main` ends up after choosing a mode: the usage (exit 0), the
      "no supported audio devices" message (exit 1), an exception out of the
      session's constructor or `open_stream`, or a running stream. */
  datatype LaunchOutcome = ShowUsage | NoDevices | Raised(error: Error) | Streaming(session: AudioSession)

  /** The keyword arguments `main` passes to `AudioSession`: the input file
      for the file-sourced modes, the output file name for the file-sinked
      ones. `inputData` is what `wave.open(in_file)` would read. */
  function InputArg(m: StreamMode, inputData: WaveFileData): Option<WaveFileData> {
    if IsFileSourced(m) then Some(inputData) else None
  }

  function OutputArg(m: StreamMode, f: CliFlags): Option<string> {
    if IsFileSinked(m) then Some(f.outFile) else None
  }

  /** `main` from the flags to the running stream: select the mode, validate
      its devices, construct the session and open its stream. */
  function Launch(f: CliFlags, settings: Settings, devices: seq<DeviceInfo>, inputData: WaveFileData, supported: SetupQuery)
    : (r: LaunchOutcome)
    ensures r.ShowUsage? <==> SelectMode(f).None?
    ensures r.NoDevices? <==> SelectMode(f).Some? && !ValidateStreamMode(settings, devices, SelectMode(f).value.Code())
    // a stream only runs in a validated mode outside the three that cannot
    // be configured or opened
    ensures r.Streaming? ==>
      && SelectMode(f).Some?
      && SelectMode(f).value !in {BuildInIn2File, VD2File, File2VD}
      && ValidateStreamMode(settings, devices, SelectMode(f).value.Code())
      && r.session.mode == SelectMode(f).value.Code()
      && r.session.stream.Some? && r.session.stream.value.active
      && (r.session.source.Some? <==> IsFileSourced(SelectMode(f).value))
      && (r.session.sink.Some? <==> IsFileSinked(SelectMode(f).value))
    // `main` always passes the keys the mode reads, so no KeyError escapes
    ensures r.Raised? ==> r.error == AttributeError("file_source") || r.error.ValueError?
  {
    match SelectMode(f)
    case None => ShowUsage
    case Some(m) =>
      if !ValidateStreamMode(settings, devices, m.Code()) then NoDevices
      else
        match Configure(m.Code(), settings, InputArg(m, inputData), OutputArg(m, f))
        case Err(e) => Raised(e)
        case Ok(s) =>
          match OpenStream(s, devices, supported)
          case Err(e) => Raised(e)
          case Ok(s') => Streaming(s')
  }

  /** `-o out.wav` without `-v` selects BuildInIn2File, whose constructor
      reads the header of an input file it never opened: `main` never gets
      a stream in that mode. */
  lemma BuildInIn2FileNeverStreams(f: CliFlags, settings: Settings, devices: seq<DeviceInfo>, inputData: WaveFileData, supported: SetupQuery)
    requires SelectMode(f) == Some(BuildInIn2File)
    ensures var r := Launch(f, settings, devices, inputData, supported);
      r == NoDevices || r == Raised(AttributeError("file_source"))
  {
  }

  /** `-v -o` and `-v -i` select VD2File and File2VD, which the
      configuration and `open_stream` tables shadow: the constructor opens
      no file and `open_stream` rejects the mode. */
  lemma ShadowedModesNeverStream(f: CliFlags, settings: Settings, devices: seq<DeviceInfo>, inputData: WaveFileData, supported: SetupQuery)
    requires SelectMode(f) == Some(VD2File) || SelectMode(f) == Some(File2VD)
    ensures var r := Launch(f, settings, devices, inputData, supported);
      r == NoDevices || r == Raised(ValueError("Unsupported stream mode!"))
  {
  }

  /** In the other five modes, a run whose devices are present, whose input
      file (if any) has a sample width PyAudio knows, and whose configured
      format, channel count, rate and input device PyAudio accepts in the
      one `is_format_supported` query `open_stream` makes, gets a running
      stream. */
  lemma OtherModesStream(f: CliFlags, settings: Settings, devices: seq<DeviceInfo>, inputData: WaveFileData, supported: SetupQuery)
    requires SelectMode(f).Some? && SelectMode(f).value !in {BuildInIn2File, VD2File, File2VD}
    requires ValidateStreamMode(settings, devices, SelectMode(f).value.Code())
    requires IsFileSourced(SelectMode(f).value) ==> 1 <= inputData.sampWidth <= 4
    requires var m := SelectMode(f).value;
      var c := Configure(m.Code(), settings, InputArg(m, inputData), OutputArg(m, f));
      c.Ok? && StreamRoute(m.Code()).Some? ==>
        supported(c.value.format, c.value.channels, c.value.rate,
                  DetectIdx(settings, devices, StreamRoute(m.Code()).value.inputRole))
    ensures Launch(f, settings, devices, inputData, supported).Streaming?
  {
    var m := SelectMode(f).value;
    assert IsFileSinked(m) ==> f.outFile != "";
    var s := Configure(m.Code(), settings, InputArg(m, inputData), OutputArg(m, f));
    assert s.Ok?;
    assert StreamRoute(m.Code()).Some?;
  }

  /** The usage line of every mode launches that mode: each reaches a
      running stream or fails as the mode's own analysis says. */
  lemma UsageLaunchesAdvertisedMode(m: StreamMode, settings: Settings, devices: seq<DeviceInfo>, inputData: WaveFileData, supported: SetupQuery)
    ensures var r := Launch(UsageFlags(m), settings, devices, inputData, supported);
      && !r.ShowUsage?
      && (r.Streaming? ==> r.session.mode == m.Code())
  {
  }
}

=== FILE: pcm_codec.dfy ===
/** The sample-level PCM codec of audio_helper.py: integer <-> unit-interval
    scaling with clipping (`pcm2float` / `float2pcm`) and stereo
    de-interleaving / interleaving (`audio_decode` / `audio_encode`).
    float32 samples are exact reals; byte buffers are already viewed as
    sample arrays. */
module PcmCodec {
  import opened Errors
  import opened PcmFormat

  /** A numpy sample array: integers of one integer type, or float32 samples. */
  datatype Array = Ints(ty: IntType, xs: seq<int>) | Floats(fs: seq<real>) {

    function Length(): nat {
      match this
      case Ints(_, xs) => |xs|
      case Floats(fs) => |fs|
    }
  }

  /** The two channel arrays `audio_decode` returns and `audio_encode` takes. */
  datatype Stereo = Stereo(ty: IntType, left: seq<int>, right: seq<int>)

  predicate InRange(t: IntType, xs: seq<int>) {
    forall i :: 0 <= i < |xs| ==> t.Min() <= xs[i] <= t.Max()
  }

  /** numpy's float -> integer `astype`: truncation toward zero. */
  function Trunc(r: real): (n: int)
    ensures 0.0 <= r ==> 0 <= n && n as real <= r < n as real + 1.0
    ensures r < 0.0 ==> n <= 0 && n as real - 1.0 < r <= n as real
  {
    if r >= 0.0 then r.Floor else -((-r).Floor)
  }

  /** numpy's `clip(lo, hi)`. */
  function Clip(v: real, lo: real, hi: real): (c: real)
    requires lo <= hi
    ensures lo <= c <= hi
    ensures lo <= v <= hi ==> c == v
    ensures v < lo ==> c == lo
    ensures hi < v ==> c == hi
  {
    if v < lo then lo else if v > hi then hi else v
  }

  /** numpy's integer -> integer `astype`: keep the low Bits() bits. */
  function Wrap(t: IntType, x: int): (y: int)
    ensures t.Min() <= y <= t.Max()
    ensures t.Min() <= x <= t.Max() ==> y == x
    ensures (y - x) % (2 * t.AbsMax()) == 0
  {
    var m := 2 * t.AbsMax();
    var d := x - t.Min();
    var y := t.Min() + d % m;
    assert y - x == m * -(d / m);
    MultipleMod(m, -(d / m));
    y
  }

  /** A multiple of a positive modulus leaves no remainder. */
  lemma MultipleMod(m: int, q: int)
    requires 0 < m
    ensures (m * q) % m == 0
  {
    var p := m * q;
    var k, r := p / m, p % m;
    assert p == m * k + r && 0 <= r < m;
    var e := q - k;
    assert m * e == r by {
      assert m * e == m * q - m * k;
    }
    if e > 0 {
      MulAtLeast(m, e);
    } else if e < 0 {
      MulAtLeast(m, -e);
    }
  }

  lemma MulAtLeast(m: int, e: int)
    requires 0 < m && 0 < e
    ensures m <= m * e
  {
    assert m * e == m + m * (e - 1);
  }

  /** One sample of `pcm2float`: (x - offset) / 2^(bits - 1). */
  function ToUnit(t: IntType, x: int): (v: real)
    ensures t.Min() <= x <= t.Max() ==> -1.0 <= v < 1.0
  {
    var a := t.AbsMax() as real;
    var d := (x - t.Offset()) as real;
    assert t.Min() <= x <= t.Max() ==> -a <= d < a;
    DivBounds(d, a);
    d / a
  }

  lemma DivBounds(d: real, a: real)
    requires 0.0 < a
    ensures -a <= d ==> -1.0 <= d / a
    ensures d < a ==> d / a < 1.0
  {
    assert d == (d / a) * a;
    if d / a < -1.0 {
      assert (d / a) * a < -a;
    }
    if d / a >= 1.0 {
      assert (d / a) * a >= a;
    }
  }

  /** One sample of `float2pcm`: v * 2^(bits - 1) + offset, clipped to the
      type's range, then truncated. */
  function FromUnit(t: IntType, v: real): (x: int)
    ensures t.Min() <= x <= t.Max()
    ensures 1.0 <= v ==> x == t.Max()
    ensures v <= -1.0 ==> x == t.Min()
  {
    var a := t.AbsMax() as real;
    var y := v * a + t.Offset() as real;
    assert 1.0 <= v ==> a <= v * a;
    assert v <= -1.0 ==> v * a <= -a;
    Trunc(Clip(y, t.Min() as real, t.Max() as real))
  }

  /** `float2pcm(pcm2float(x)) == x` for every sample the type can hold. */
  lemma UnitRoundTrip(t: IntType, x: int)
    requires t.Min() <= x <= t.Max()
    ensures FromUnit(t, ToUnit(t, x)) == x
  {
    var a := t.AbsMax() as real;
    var d := (x - t.Offset()) as real;
    assert (d / a) * a == d;
  }

  /** `float2pcm` on one unit-interval value lands within one step of the
      exact scaled value. */
  lemma FromUnitError(t: IntType, v: real)
    requires -1.0 <= v < 1.0
    ensures var y := v * t.AbsMax() as real + t.Offset() as real;
      -1.0 < FromUnit(t, v) as real - y < 1.0
  {
    var a := t.AbsMax() as real;
    assert -a <= v * a < a by {
      assert v * a < 1.0 * a;
    }
  }

  /** Scaling a unit-interval value to PCM and back moves it by less than one
      quantisation step, and a second pass changes nothing. */
  lemma QuantizationStep(t: IntType, v: real)
    requires -1.0 <= v < 1.0
    ensures var q := ToUnit(t, FromUnit(t, v));
      -1.0 / t.AbsMax() as real < q - v < 1.0 / t.AbsMax() as real
    ensures ToUnit(t, FromUnit(t, ToUnit(t, FromUnit(t, v)))) == ToUnit(t, FromUnit(t, v))
  {
    var a := t.AbsMax() as real;
    var off := t.Offset() as real;
    var x := FromUnit(t, v);
    var e := x as real - (v * a + off);
    FromUnitError(t, v);
    var q := ToUnit(t, x);
    assert q * a == x as real - off;
    assert (q - v) * a == e;
    assert q - v == e / a;
    StrictDivBounds(e, a);
    UnitRoundTrip(t, x);
  }

  lemma StrictDivBounds(d: real, a: real)
    requires 0.0 < a && -1.0 < d < 1.0
    ensures -1.0 / a < d / a < 1.0 / a
  {
    assert d / a * a == d;
    assert 1.0 / a * a == 1.0;
  }

  /** `pcm2float`: an integer array scaled into [-1, 1). */
  function Pcm2Float(sig: Array, dtype: SampleType): (r: Result<Array>)
    ensures r.Ok? <==> sig.Ints? && dtype == Float32
    ensures r.Err? ==> r.error.TypeError?
    ensures !sig.Ints? ==> r == Err(TypeError("'sig' must be an array of integers"))
    ensures sig.Ints? && dtype != Float32 ==> r == Err(TypeError("'dtype' must be a floating point type"))
    ensures r.Ok? ==> r.value.Floats? && |r.value.fs| == sig.Length()
    ensures r.Ok? ==> forall i :: 0 <= i < |r.value.fs| ==> r.value.fs[i] == ToUnit(sig.ty, sig.xs[i])
    ensures r.Ok? && InRange(sig.ty, sig.xs) ==>
      forall i :: 0 <= i < |r.value.fs| ==> -1.0 <= r.value.fs[i] < 1.0
  {
    if !sig.Ints? then Err(TypeError("'sig' must be an array of integers"))
    else if dtype != Float32 then Err(TypeError("'dtype' must be a floating point type"))
    else Ok(Floats(seq(|sig.xs|, i requires 0 <= i < |sig.xs| => ToUnit(sig.ty, sig.xs[i]))))
  }

  /** `float2pcm`: a float array scaled to the integer type, saturating at
      both ends of its range. */
  function Float2Pcm(sig: Array, dtype: SampleType): (r: Result<Array>)
    ensures r.Ok? <==> sig.Floats? && dtype.Integer?
    ensures r.Err? ==> r.error.TypeError?
    ensures !sig.Floats? ==> r == Err(TypeError("'sig' must be a float array"))
    ensures sig.Floats? && !dtype.Integer? ==> r == Err(TypeError("'dtype' must be an integer type"))
    ensures r.Ok? ==> r.value.Ints? && r.value.ty == dtype.t && |r.value.xs| == sig.Length()
    ensures r.Ok? ==> InRange(dtype.t, r.value.xs)
    ensures r.Ok? ==> forall i :: 0 <= i < |r.value.xs| ==> r.value.xs[i] == FromUnit(dtype.t, sig.fs[i])
    ensures r.Ok? ==> forall i :: 0 <= i < |r.value.xs| && 1.0 <= sig.fs[i] ==> r.value.xs[i] == dtype.t.Max()
    ensures r.Ok? ==> forall i :: 0 <= i < |r.value.xs| && sig.fs[i] <= -1.0 ==> r.value.xs[i] == dtype.t.Min()
  {
    if !sig.Floats? then Err(TypeError("'sig' must be a float array"))
    else if !dtype.Integer? then Err(TypeError("'dtype' must be an integer type"))
    else Ok(Ints(dtype.t, seq(|sig.fs|, i requires 0 <= i < |sig.fs| => FromUnit(dtype.t, sig.fs[i]))))
  }

  /** `float2pcm(pcm2float(sig)) == sig` for every in-range integer array. */
  lemma Pcm2FloatRoundTrip(t: IntType, xs: seq<int>)
    requires InRange(t, xs)
    ensures Pcm2Float(Ints(t, xs), Float32).Ok?
    ensures Float2Pcm(Pcm2Float(Ints(t, xs), Float32).value, Integer(t)) == Ok(Ints(t, xs))
  {
    var fs := Pcm2Float(Ints(t, xs), Float32).value;
    var back := Float2Pcm(fs, Integer(t)).value;
    forall i | 0 <= i < |xs|
      ensures back.xs[i] == xs[i]
    {
      UnitRoundTrip(t, xs[i]);
    }
    assert back.xs == xs;
  }

  /** Position of channel `k` of frame `i` in an interleaved buffer of
      `c`-sample frames. */
  function FrameIndex(c: nat, i: nat, k: nat): nat {
    c * i + k
  }

  lemma FrameIndexBound(n: nat, c: nat, i: nat, k: nat)
    requires k < c && n % c == 0 && i < n / c
    ensures FrameIndex(c, i, k) < n
  {
    var q := n / c;
    assert n == c * q;
    assert i + 1 <= q;
    assert c * (i + 1) <= c * q;
  }

  lemma FrameIndexBounds(n: nat, c: nat)
    requires 0 < c && n % c == 0
    ensures forall i, k :: 0 <= i < n / c && 0 <= k < c ==> FrameIndex(c, i, k) < n
  {
    forall i, k | 0 <= i < n / c && 0 <= k < c
      ensures FrameIndex(c, i, k) < n
    {
      FrameIndexBound(n, c, i, k);
    }
  }

  /** Column `k` of the `(|s| / c) x c` reshape of `s`. */
  function Channel(s: seq<int>, c: nat, k: nat): (ch: seq<int>)
    requires k < c && |s| % c == 0
    ensures |ch| == |s| / c
    ensures forall i :: 0 <= i < |ch| ==> FrameIndex(c, i, k) < |s| && ch[i] == s[FrameIndex(c, i, k)]
  {
    FrameIndexBounds(|s|, c);
    seq(|s| / c, i requires 0 <= i < |s| / c => s[FrameIndex(c, i, k)])
  }

  /** Frame-interleaving of two equal-length channels (`flatten('F')` of the
      2 x n array they form). */
  function Interleave(a: seq<int>, b: seq<int>): (r: seq<int>)
    requires |a| == |b|
    ensures |r| == 2 * |a|
    ensures forall i :: 0 <= i < |a| ==> r[2 * i] == a[i] && r[2 * i + 1] == b[i]
    decreases |a|
  {
    if |a| == 0 then []
    else
      var n := |a| - 1;
      var rest := Interleave(a[..n], b[..n]);
      assert forall i :: 0 <= i < n ==> a[..n][i] == a[i] && b[..n][i] == b[i];
      rest + [a[n], b[n]]
  }

  /** The samples `audio_decode` de-interleaves: a float32 buffer is first
      converted to int16 by `float2pcm`, an integer buffer is used as is. */
  function DecodedSamples(data: Array): (s: Array)
    ensures s.Ints? && |s.xs| == data.Length()
    ensures data.Ints? ==> s == data
    ensures data.Floats? ==> s.ty == Int16 && Float2Pcm(data, Integer(Int16)) == Ok(s)
  {
    match data
    case Ints(_, _) => data
    case Floats(_) => Float2Pcm(data, Integer(Int16)).value
  }

  /** `audio_decode(in_data, channels, dtype)`, where `data` is `in_data`
      already viewed as `dtype` samples. */
  function AudioDecode(data: Array, channels: nat): (r: Result<Stereo>)
    ensures r.Ok? <==> 2 <= channels && data.Length() % channels == 0
    ensures channels == 0 ==> r == Err(ZeroDivisionError)
    ensures channels == 1 ==> r == Err(IndexError)
    ensures 2 <= channels && data.Length() % channels != 0 ==> r.Err? && r.error.ValueError?
    ensures r.Ok? ==> |r.value.left| == |r.value.right| == data.Length() / channels
    ensures r.Ok? && data.Floats? ==> r.value.ty == Int16
    ensures r.Ok? && data.Ints? ==> r.value.ty == data.ty
    ensures r.Ok? ==> var s := DecodedSamples(data).xs;
      forall i :: 0 <= i < |r.value.left| ==>
        FrameIndex(channels, i, 1) < |s|
        && r.value.left[i] == s[FrameIndex(channels, i, 0)]
        && r.value.right[i] == s[FrameIndex(channels, i, 1)]
  {
    var signal := DecodedSamples(data);
    if channels == 0 then Err(ZeroDivisionError)
    else if |signal.xs| % channels != 0 then Err(ValueError("total size of new array must be unchanged"))
    else if channels < 2 then Err(IndexError)
    else Ok(Stereo(signal.ty, Channel(signal.xs, channels, 0), Channel(signal.xs, channels, 1)))
  }

  /** numpy's `astype(dtype)` applied to an integer sample sequence. */
  function AsType(xs: seq<int>, dtype: SampleType): (r: Array)
    ensures r.Length() == |xs|
    ensures dtype == Float32 ==> r.Floats?
    ensures dtype.Integer? ==> r.Ints? && r.ty == dtype.t && InRange(dtype.t, r.xs)
    ensures dtype == Float32 ==> forall i :: 0 <= i < |xs| ==> r.fs[i] == xs[i] as real
    ensures dtype.Integer? ==> forall i :: 0 <= i < |xs| ==> r.xs[i] == Wrap(dtype.t, xs[i])
  {
    match dtype
    case Float32 => Floats(seq(|xs|, i requires 0 <= i < |xs| => xs[i] as real))
    case Integer(t) => Ints(t, seq(|xs|, i requires 0 <= i < |xs| => Wrap(t, xs[i])))
  }

  /** `audio_encode(signal, dtype)`: frame-interleaves the two channels and
      casts the samples to `dtype`. On the float32 path the source computes
      `pcm2float(signal)` but drops its result, and on an integer signal that
      call cannot fail; so samples reach the float32 output unscaled. */
  function AudioEncode(sig: Stereo, dtype: SampleType): (r: Result<Array>)
    ensures r.Ok? <==> |sig.left| == |sig.right|
    ensures r.Err? ==> r.error.ValueError?
    ensures r.Ok? ==> r.value.Length() == 2 * |sig.left|
    ensures r.Ok? && dtype == Float32 ==>
      && r.value.Floats?
      && forall i :: 0 <= i < |sig.left| ==>
           r.value.fs[2 * i] == sig.left[i] as real && r.value.fs[2 * i + 1] == sig.right[i] as real
    ensures r.Ok? && dtype.Integer? ==>
      && r.value.Ints? && r.value.ty == dtype.t
      && forall i :: 0 <= i < |sig.left| ==>
           r.value.xs[2 * i] == Wrap(dtype.t, sig.left[i]) && r.value.xs[2 * i + 1] == Wrap(dtype.t, sig.right[i])
  {
    if |sig.left| != |sig.right| then Err(ValueError("setting an array element with a sequence."))
    else
      assert Pcm2Float(Ints(sig.ty, Interleave(sig.left, sig.right)), Float32).Ok?;
      Ok(AsType(Interleave(sig.left, sig.right), dtype))
  }

  /** Two sequences of even length that agree frame by frame are equal. */
  lemma FramewiseEqual(a: seq<int>, b: seq<int>)
    requires |a| == |b| && |a| % 2 == 0
    requires forall i :: 0 <= i < |a| / 2 ==> a[2 * i] == b[2 * i] && a[2 * i + 1] == b[2 * i + 1]
    ensures a == b
  {
    forall j | 0 <= j < |a|
      ensures a[j] == b[j]
    {
      var i := j / 2;
      assert j == 2 * i || j == 2 * i + 1;
    }
  }

  /** Interleaving the two columns of a stereo reshape gives the buffer. */
  lemma InterleaveChannels(xs: seq<int>)
    requires |xs| % 2 == 0
    ensures Interleave(Channel(xs, 2, 0), Channel(xs, 2, 1)) == xs
  {
    var l, r := Channel(xs, 2, 0), Channel(xs, 2, 1);
    var out := Interleave(l, r);
    var h := |xs| / 2;
    assert |xs| == 2 * h && |l| == h && |r| == h && |out| == 2 * h;
    forall i | 0 <= i < h
      ensures out[2 * i] == xs[2 * i] && out[2 * i + 1] == xs[2 * i + 1]
    {
      assert FrameIndex(2, i, 0) == 2 * i && FrameIndex(2, i, 1) == 2 * i + 1;
      assert out[2 * i] == l[i] && out[2 * i + 1] == r[i];
    }
    FramewiseEqual(out, xs);
  }

  /** Casting in-range samples to their own type changes nothing. */
  lemma AsTypeInRange(t: IntType, xs: seq<int>)
    requires InRange(t, xs)
    ensures AsType(xs, Integer(t)) == Ints(t, xs)
  {
  }

  /** Decoding an integer buffer as stereo takes its two reshape columns. */
  lemma DecodeStereoInts(t: IntType, xs: seq<int>)
    requires |xs| % 2 == 0
    ensures AudioDecode(Ints(t, xs), 2) == Ok(Stereo(t, Channel(xs, 2, 0), Channel(xs, 2, 1)))
  {
  }

  /** Encoding in-range channels to their own type is plain interleaving. */
  lemma EncodeStereoInts(sig: Stereo)
    requires |sig.left| == |sig.right|
    requires InRange(sig.ty, Interleave(sig.left, sig.right))
    ensures AudioEncode(sig, Integer(sig.ty)) == Ok(Ints(sig.ty, Interleave(sig.left, sig.right)))
  {
    AsTypeInRange(sig.ty, Interleave(sig.left, sig.right));
  }

  /** Encoding a stereo buffer decoded from an in-range integer array of the
      same type gives the array back: `encode(decode(s, 2, t), t) == s`. */
  lemma EncodeDecodeRoundTrip(t: IntType, xs: seq<int>)
    requires InRange(t, xs) && |xs| % 2 == 0
    ensures AudioDecode(Ints(t, xs), 2).Ok?
    ensures AudioEncode(AudioDecode(Ints(t, xs), 2).value, Integer(t)) == Ok(Ints(t, xs))
  {
    DecodeStereoInts(t, xs);
    InterleaveChannels(xs);
    EncodeStereoInts(Stereo(t, Channel(xs, 2, 0), Channel(xs, 2, 1)));
  }

  /** Decoding what `audio_encode` wrote gives back the two channels:
      `decode(encode(l, r), 2) == (l, r)` for in-range samples. */
  lemma DecodeEncodeRoundTrip(st: Stereo)
    requires |st.left| == |st.right|
    requires InRange(st.ty, st.left) && InRange(st.ty, st.right)
    ensures AudioEncode(st, Integer(st.ty)).Ok?
    ensures AudioDecode(AudioEncode(st, Integer(st.ty)).value, 2) == Ok(st)
  {
    var enc := AudioEncode(st, Integer(st.ty)).value;
    var dec := AudioDecode(enc, 2).value;
    forall i | 0 <= i < |st.left|
      ensures dec.left[i] == st.left[i] && dec.right[i] == st.right[i]
    {
      assert FrameIndex(2, i, 0) == 2 * i && FrameIndex(2, i, 1) == 2 * i + 1;
    }
    assert dec.left == st.left && dec.right == st.right;
  }

  /** The live path `audio_encode(audio_decode(buf, 2))` with the default
      float32 type on both sides: every sample comes back on the int16 scale
      (`float2pcm(v)`), not normalised back into [-1, 1). */
  lemma LiveRoundTripScale(fs: seq<real>)
    requires |fs| % 2 == 0
    ensures AudioDecode(Floats(fs), 2).Ok?
    ensures AudioEncode(AudioDecode(Floats(fs), 2).value, Float32)
         == Ok(Floats(seq(|fs|, j requires 0 <= j < |fs| => FromUnit(Int16, fs[j]) as real)))
  {
    var st := AudioDecode(Floats(fs), 2).value;
    var out := AudioEncode(st, Float32).value;
    var s := DecodedSamples(Floats(fs)).xs;
    var expected := seq(|fs|, j requires 0 <= j < |fs| => FromUnit(Int16, fs[j]) as real);
    forall j | 0 <= j < |fs|
      ensures out.fs[j] == expected[j]
    {
      var i := j / 2;
      if j % 2 == 0 {
        assert j == FrameIndex(2, i, 0) && j == 2 * i;
      } else {
        assert j == FrameIndex(2, i, 1) && j == 2 * i + 1;
      }
      assert out.fs[j] == s[j] as real;
    }
    assert out.fs == expected;
  }

  /** A concrete live frame: (0.5, -0.25) leaves the live path as
      (16384.0, -8192.0). */
  lemma LiveFrameExample()
    ensures AudioEncode(AudioDecode(Floats([0.5, -0.25]), 2).value, Float32) == Ok(Floats([16384.0, -8192.0]))
  {
    LiveRoundTripScale([0.5, -0.25]);
    var fs := [0.5, -0.25];
    var scaled := seq(|fs|, j requires 0 <= j < |fs| => FromUnit(Int16, fs[j]) as real);
    assert FromUnit(Int16, 0.5) == 16384;
    assert FromUnit(Int16, -0.25) == -8192;
    assert scaled == [16384.0, -8192.0] by {
      assert scaled[0] == 16384.0 && scaled[1] == -8192.0;
    }
  }
}

=== FILE: pcm_format.dfy ===
/** The PortAudio sample-format codes, the numpy sample types they map to,
    and the human-readable label of each code (audio_helper.py). */
module PcmFormat {
  import opened Errors

  // PortAudio format codes, as listed beside `AudioSettings.format`.
  const PaFloat32: int := 1
  const PaInt32: int := 2
  const PaInt24: int := 4
  const PaInt16: int := 8
  const PaInt8: int := 16
  const PaUInt8: int := 32
  const PaCustomFormat: int := 65536

  /** The codes `FormatDescription` knows a label for. */
  const KnownCodes: set<int> := {PaFloat32, PaInt32, PaInt24, PaInt16, PaInt8, PaUInt8, PaCustomFormat}

  /** The codes that have a numpy sample type. */
  const SupportedCodes: set<int> := {PaFloat32, PaInt32, PaInt16, PaInt8, PaUInt8}

  /** A numpy integer sample type, with the limits `np.iinfo` reports. */
  datatype IntType = Int32 | Int16 | Int8 | UInt8 {

    function Bits(): nat {
      match this
      case Int32 => 32
      case Int16 => 16
      case Int8 => 8
      case UInt8 => 8
    }

    /** 2^(Bits() - 1), the scale between samples and the unit interval. */
    function AbsMax(): (r: int)
      ensures r > 0
    {
      match this
      case Int32 => 0x8000_0000
      case Int16 => 0x8000
      case Int8 => 0x80
      case UInt8 => 0x80
    }

    function Min(): int {
      match this
      case Int32 => -0x8000_0000
      case Int16 => -0x8000
      case Int8 => -0x80
      case UInt8 => 0
    }

    /** The type holds exactly 2^Bits() values, from Min() up. */
    function Max(): (r: int)
      ensures r == Min() + 2 * AbsMax() - 1
    {
      match this
      case Int32 => 0x7FFF_FFFF
      case Int16 => 0x7FFF
      case Int8 => 0x7F
      case UInt8 => 0xFF
    }

    /** The sample that maps to 0.0: zero for signed types, the midpoint for UInt8. */
    function Offset(): int {
      Min() + AbsMax()
    }
  }

  /** A numpy sample type: float32 or one of the integer types. */
  datatype SampleType = Float32 | Integer(t: IntType)

  /** The PortAudio code a sample type comes from; it inverts `SampleTypeOfFormat`. */
  function PaCode(st: SampleType): (code: int)
    ensures code in SupportedCodes
    ensures SampleTypeOfFormat(code) == Ok(st)
  {
    match st
    case Float32 => PaFloat32
    case Integer(Int32) => PaInt32
    case Integer(Int16) => PaInt16
    case Integer(Int8) => PaInt8
    case Integer(UInt8) => PaUInt8
  }

  /** `py_audio_format_to_numpy`: Int24, the custom format and unknown codes
      raise TypeError. */
  function SampleTypeOfFormat(code: int): (r: Result<SampleType>)
    ensures r.Ok? <==> code in SupportedCodes
    ensures r.Err? ==> r.error.TypeError?
    ensures code == PaInt24 ==> r == Err(TypeError("Unsupported audio Int24 format."))
    ensures code == PaCustomFormat ==> r == Err(TypeError("Unsupported custom audio format."))
    ensures code !in KnownCodes ==> r == Err(TypeError("Unsupported audio format."))
  {
    if code == PaFloat32 then Ok(Float32)
    else if code == PaInt32 then Ok(Integer(Int32))
    else if code == PaInt24 then Err(TypeError("Unsupported audio Int24 format."))
    else if code == PaInt16 then Ok(Integer(Int16))
    else if code == PaInt8 then Ok(Integer(Int8))
    else if code == PaUInt8 then Ok(Integer(UInt8))
    else if code == PaCustomFormat then Err(TypeError("Unsupported custom audio format."))
    else Err(TypeError("Unsupported audio format."))
  }

  /** `py_audio_format_desc`: total, one label per known code. */
  function FormatDescription(code: int): (desc: string)
    ensures desc == "Unsupported format!" <==> code !in KnownCodes
  {
    if code == PaFloat32 then "32 bit float"
    else if code == PaInt32 then "32 bit int"
    else if code == PaInt24 then "24 bit int"
    else if code == PaInt16 then "16 bit int"
    else if code == PaInt8 then "8 bit int"
    else if code == PaUInt8 then "8 bit unsigned int"
    else if code == PaCustomFormat then "custom format"
    else "Unsupported format!"
  }

  /** Reading a label back: the code whose description it is. */
  function CodeOfDescription(desc: string): Option<int> {
    if desc == "32 bit float" then Some(PaFloat32)
    else if desc == "32 bit int" then Some(PaInt32)
    else if desc == "24 bit int" then Some(PaInt24)
    else if desc == "16 bit int" then Some(PaInt16)
    else if desc == "8 bit int" then Some(PaInt8)
    else if desc == "8 bit unsigned int" then Some(PaUInt8)
    else if desc == "custom format" then Some(PaCustomFormat)
    else None
  }

  /** The label of a known code names that code and no other, so distinct
      known codes have distinct labels; unknown codes share one label that
      names none. */
  lemma DescriptionNamesFormat(code: int)
    ensures code in KnownCodes ==> CodeOfDescription(FormatDescription(code)) == Some(code)
    ensures code !in KnownCodes ==> CodeOfDescription(FormatDescription(code)) == None
  {
    var d := FormatDescription(code);
    if code == PaFloat32 {
      assert d == "32 bit float";
    } else if code == PaInt32 {
      assert |d| == 10;
    } else if code == PaInt24 {
      assert d[0] == '2';
    } else if code == PaInt16 {
      assert d[0] == '1';
    } else if code == PaInt8 {
      assert d[0] == '8' && |d| == 9;
    } else if code == PaUInt8 {
      assert d[0] == '8' && |d| == 18;
    } else if code == PaCustomFormat {
      assert d[0] == 'c';
    } else {
      assert d[0] == 'U';
    }
  }

  lemma DescriptionsDistinct(a: int, b: int)
    requires a in KnownCodes && b in KnownCodes && a != b
    ensures FormatDescription(a) != FormatDescription(b)
  {
    DescriptionNamesFormat(a);
    DescriptionNamesFormat(b);
  }

  /** PyAudio's `get_sample_size`: the bytes one sample of a format code
      takes; the custom format and unknown codes have none. */
  function SampleBytes(code: int): (n: Option<int>)
    ensures n.Some? <==> code in KnownCodes - {PaCustomFormat}
  {
    if code == PaFloat32 || code == PaInt32 then Some(4)
    else if code == PaInt24 then Some(3)
    else if code == PaInt16 then Some(2)
    else if code == PaInt8 || code == PaUInt8 then Some(1)
    else None
  }

  /** PyAudio's `get_format_from_width` with its default `unsigned=True`: a
      code whose samples are `width` bytes wide, choosing the unsigned type
      for one byte and float32 for four; other widths raise ValueError. */
  function FormatFromWidth(width: int): (r: Result<int>)
    ensures r.Ok? <==> 1 <= width <= 4
    ensures r.Err? ==> r.error.ValueError?
    ensures r.Ok? ==> r.value in KnownCodes && SampleBytes(r.value) == Some(width)
    ensures width == 1 ==> r == Ok(PaUInt8)
    ensures width == 4 ==> r == Ok(PaFloat32)
  {
    if width == 1 then Ok(PaUInt8)
    else if width == 2 then Ok(PaInt16)
    else if width == 3 then Ok(PaInt24)
    else if width == 4 then Ok(PaFloat32)
    else Err(ValueError("Invalid width"))
  }
}

=== FILE: power2.dfy ===
/** `is_power2` of py_streaming_dsp.py: `num and not num & (num - 1)`. */
module Power2 {

  /** Python's `&` on non-negative integers, bit by bit from the lowest. */
  function BitAnd(a: nat, b: nat): nat
    decreases a
  {
    if a == 0 || b == 0 then 0
    else 2 * BitAnd(a / 2, b / 2) + (if a % 2 == 1 && b % 2 == 1 then 1 else 0)
  }

  /** `is_power2(n)` as a truth value. `n == 0` short-circuits to the falsy 0.
      For `n < 0` both `n` and `n - 1` have infinitely many set high bits in
      Python's two's-complement view, so their `&` is non-zero and `not`
      makes the result False; only positive `n` reaches the bit test. */
  predicate IsPower2(n: int) {
    n > 0 && BitAnd(n, n - 1) == 0
  }

  /** Reference definition: 1, 2, 4, 8, ... */
  predicate PowerOfTwo(n: int)
    decreases if n < 0 then 0 else n
  {
    n == 1 || (n > 1 && n % 2 == 0 && PowerOfTwo(n / 2))
  }

  function Pow2(k: nat): (p: nat)
    ensures p >= 1
  {
    if k == 0 then 1 else 2 * Pow2(k - 1)
  }

  lemma {:induction false} BitAndSelf(m: nat)
    ensures BitAnd(m, m) == m
    decreases m
  {
    if m > 0 {
      BitAndSelf(m / 2);
    }
  }

  /** The bit trick agrees with the reference: `is_power2(n)` is truthy
      exactly for the positive powers of two, and falsy for 0 and negatives. */
  lemma {:induction false} IsPower2Correct(n: int)
    ensures IsPower2(n) <==> PowerOfTwo(n)
    decreases if n < 0 then 0 else n
  {
    if n > 1 {
      var m := n / 2;
      if n % 2 == 0 {
        assert (n - 1) / 2 == m - 1;
        assert BitAnd(n, n - 1) == 2 * BitAnd(m, m - 1);
        IsPower2Correct(m);
      } else {
        assert n - 1 == 2 * m;
        assert BitAnd(n, n - 1) == 2 * BitAnd(m, m);
        BitAndSelf(m);
      }
    }
  }

  /** Every 2^k is a power of two, and so passes `is_power2`. */
  lemma {:induction false} Pow2IsPower2(k: nat)
    ensures PowerOfTwo(Pow2(k)) && IsPower2(Pow2(k))
  {
    if k > 0 {
      Pow2IsPower2(k - 1);
      assert Pow2(k) / 2 == Pow2(k - 1);
    }
    IsPower2Correct(Pow2(k));
  }
}

=== FILE: session.dfy ===
/** The lifecycle of `AudioSession` in py_streaming_dsp.py: construction and
    per-mode configuration, `open_stream` and `close_stream`. Wave files are
    in-memory sample sequences, the device stream is a record of the
    parameters it was opened with, and PyAudio's `is_format_supported` is the
    `SetupQuery` parameter. */
module StreamSession {
  import opened Errors
  import opened PcmFormat
  import opened PcmCodec
  import opened AudioSettings

  // The keyword-argument keys the session reads its file names from.
  const InputFileKey: string := "input_key"
  const OutputFileKey: string := "output_key"

  /** A wave file on disk: its header fields and its PCM data, viewed as the
      16-bit samples the callback decodes it as. */
  datatype WaveFileData = WaveFileData(sampWidth: int, nchannels: nat, frameRate: int, data: seq<int>)

  /** `self.file_source`: a wave file opened for reading; `cursor` counts the
      samples already read. */
  datatype WaveSource = WaveSource(file: WaveFileData, cursor: nat, isOpen: bool)

  /** `self.output_wave_file`: a wave file opened for writing, with the header
      fields set on it and every buffer written so far. */
  datatype WaveSink = WaveSink(path: string, nchannels: nat, sampWidth: int, frameRate: int, chunks: seq<Array>, isOpen: bool)

  /** `self.stream`: a PyAudio stream and the parameters it was opened with. */
  datatype DeviceStream = DeviceStream(
    format: int,
    channels: nat,
    rate: int,
    framesPerBuffer: int,
    input: bool,
    output: bool,
    inputDevice: int,
    outputDevice: int,
    active: bool,
    isOpen: bool)

  /** The attributes of an `AudioSession`. `hasPyAudio` records that
      `open_stream` created `self.p_audio`; the elapsed-time statistics are
      in seconds. */
  datatype AudioSession = AudioSession(
    mode: int,
    settings: Settings,
    format: int,
    channels: nat,
    rate: int,
    source: Option<WaveSource>,
    sink: Option<WaveSink>,
    stream: Option<DeviceStream>,
    hasPyAudio: bool,
    minElapsed: real,
    maxElapsed: real)

  /** PyAudio's `is_format_supported(format, channels, rate, input_device)`. */
  type SetupQuery = (int, int, int, int) -> bool

  /** The attributes `__init__` sets before configuring: no files, no
      stream, format / channels / rate from the settings, and statistics
      primed so that the first buffer replaces both. */
  function NewSession(mode: int, settings: Settings): AudioSession {
    AudioSession(mode, settings, settings.format, settings.channels, settings.rate,
                 None, None, None, false, 100.0, 0.0)
  }

  /** `__configure_input_file`: opens the input file and lets its header
      override the session's format, channel count and rate. */
  function ConfigureInputFile(s: AudioSession, inputFile: Option<WaveFileData>): (r: Result<AudioSession>)
    ensures inputFile.None? ==> r == Err(KeyError(InputFileKey))
    ensures r.Ok? <==> inputFile.Some? && 1 <= inputFile.value.sampWidth <= 4
    ensures r.Ok? ==>
      && r.value.source == Some(WaveSource(inputFile.value, 0, true))
      && Ok(r.value.format) == FormatFromWidth(inputFile.value.sampWidth)
      && r.value.channels == inputFile.value.nchannels
      && r.value.rate == inputFile.value.frameRate
      && r.value.(source := s.source, format := s.format, channels := s.channels, rate := s.rate) == s
  {
    match inputFile
    case None => Err(KeyError(InputFileKey))
    case Some(file) =>
      var format :- FormatFromWidth(file.sampWidth);
      Ok(s.(source := Some(WaveSource(file, 0, true)), format := format,
            channels := file.nchannels, rate := file.frameRate))
  }

  /** `__configure_output_file`: opens the output file and copies channel
      count, sample width and frame rate from `self.file_source`, which only
      an input-file configuration creates. */
  function ConfigureOutputFile(s: AudioSession, outputPath: Option<string>): (r: Result<AudioSession>)
    ensures outputPath.None? ==> r == Err(KeyError(OutputFileKey))
    ensures outputPath.Some? && s.source.None? ==> r == Err(AttributeError("file_source"))
    ensures r.Ok? <==> outputPath.Some? && s.source.Some?
    ensures r.Ok? ==>
      && var f := s.source.value.file;
      && r.value.sink == Some(WaveSink(outputPath.value, f.nchannels, f.sampWidth, f.frameRate, [], true))
      && r.value.(sink := s.sink) == s
  {
    match outputPath
    case None => Err(KeyError(OutputFileKey))
    case Some(path) =>
      match s.source
      case None => Err(AttributeError("file_source"))
      case Some(src) =>
        Ok(s.(sink := Some(WaveSink(path, src.file.nchannels, src.file.sampWidth, src.file.frameRate, [], true))))
  }

  /** `AudioSession(stream_mode, settings, **kwargs)`: `__init__` followed by
      `__configure_for_stream_mode`, branch for branch. The last two
      `elif` branches repeat the codes of BuildInIn2File and File2BuildInOut, so
      VD2File and File2VD reach the "unsupported" branch and open no file. */
  function Configure(mode: int, settings: Settings, inputFile: Option<WaveFileData>, outputPath: Option<string>)
    : (r: Result<AudioSession>)
    ensures r.Ok? ==> r.value.mode == mode && r.value.settings == settings && r.value.stream.None?
    ensures r.Ok? ==> r.value.minElapsed == 100.0 && r.value.maxElapsed == 0.0 && !r.value.hasPyAudio
    // the modes without files, the two shadowed modes and unknown codes open nothing
    ensures mode !in {File2File.Code(), BuildInIn2File.Code(), File2BuildInOut.Code()} ==>
      r == Ok(NewSession(mode, settings))
    // File2File opens both files, the output mirroring the input's header
    ensures mode == File2File.Code() ==>
      && (r.Ok? <==> inputFile.Some? && outputPath.Some? && 1 <= inputFile.value.sampWidth <= 4)
      && (r.Ok? ==>
            && r.value.source == Some(WaveSource(inputFile.value, 0, true))
            && r.value.sink.Some? && r.value.sink.value.chunks == []
            && r.value.sink.value.nchannels == inputFile.value.nchannels
            && r.value.sink.value.sampWidth == inputFile.value.sampWidth
            && r.value.sink.value.frameRate == inputFile.value.frameRate)
    // File2BuildInOut opens the input file only
    ensures mode == File2BuildInOut.Code() ==>
      && (r.Ok? <==> inputFile.Some? && 1 <= inputFile.value.sampWidth <= 4)
      && (r.Ok? ==> r.value.source == Some(WaveSource(inputFile.value, 0, true)) && r.value.sink.None?)
    // BuildInIn2File wants the header of an input file it never opened
    ensures mode == BuildInIn2File.Code() ==>
      r == Err(if outputPath.None? then KeyError(OutputFileKey) else AttributeError("file_source"))
  {
    var s := NewSession(mode, settings);
    if mode == BuildInIn2Out.Code() then Ok(s)
    else if mode == BuildInIn2VD.Code() then Ok(s)
    else if mode == VD2BuildInOut.Code() then Ok(s)
    else if mode == File2File.Code() then
      var s1 :- ConfigureInputFile(s, inputFile);
      ConfigureOutputFile(s1, outputPath)
    else if mode == BuildInIn2File.Code() then ConfigureOutputFile(s, outputPath)
    else if mode == File2BuildInOut.Code() then ConfigureInputFile(s, inputFile)
    else if mode == BuildInIn2File.Code() then ConfigureOutputFile(s, outputPath)
    else if mode == File2BuildInOut.Code() then ConfigureInputFile(s, inputFile)
    else Ok(s)
  }

  /** One row of the `open_stream` table: whose device indices are looked up
      and which directions of the stream are enabled. */
  datatype Route = Route(inputRole: DeviceRole, outputRole: DeviceRole, enableInput: bool, enableOutput: bool)

  /** The `open_stream` mode table, branch for branch; its last two
      `elif` branches repeat earlier codes as well, so VD2File and File2VD have no
      row. */
  function StreamRoute(mode: int): (r: Option<Route>)
    ensures r.Some? <==> ModeOfCode(mode).Some? && ModeOfCode(mode).value !in {VD2File, File2VD}
    // output is enabled exactly when the sink is a device; input when the
    // source is a device, and for File2File, whose callback is driven by an
    // input-only stream
    ensures r.Some? ==> var m := ModeOfCode(mode).value;
      && (r.value.enableOutput <==> !IsFileSinked(m))
      && (r.value.enableInput <==> !IsFileSourced(m) || m == File2File)
    // a device endpoint of the topology is the device the route looks up
    ensures r.Some? ==> var m := ModeOfCode(mode).value;
      && (Topology(m).0.Device? ==> r.value.inputRole == Topology(m).0.role)
      && (Topology(m).1.Device? ==> r.value.outputRole == Topology(m).1.role)
    // a file endpoint still names a device: the built-in one of its side
    ensures r.Some? ==> var m := ModeOfCode(mode).value;
      && (Topology(m).0 == WaveFile ==> r.value.inputRole == BuildInInput)
      && (Topology(m).1 == WaveFile ==> r.value.outputRole == BuildInOutput)
  {
    if mode == BuildInIn2Out.Code() then Some(Route(BuildInInput, BuildInOutput, true, true))
    else if mode == BuildInIn2VD.Code() then Some(Route(BuildInInput, VirtualDevice, true, true))
    else if mode == VD2BuildInOut.Code() then Some(Route(VirtualDevice, BuildInOutput, true, true))
    else if mode == File2File.Code() then Some(Route(BuildInInput, BuildInOutput, true, false))
    else if mode == BuildInIn2File.Code() then Some(Route(BuildInInput, BuildInOutput, true, false))
    else if mode == File2BuildInOut.Code() then Some(Route(BuildInInput, BuildInOutput, false, true))
    else if mode == BuildInIn2File.Code() then Some(Route(VirtualDevice, BuildInOutput, true, false))
    else if mode == File2BuildInOut.Code() then Some(Route(BuildInInput, VirtualDevice, false, true))
    else None
  }

  /** `open_stream`: look up the mode's devices, then open and start a stream
      only if PyAudio accepts the session's format, channel count, rate and
      input device; otherwise raise and leave `self.stream` unset. */
  function OpenStream(s: AudioSession, devices: seq<DeviceInfo>, supported: SetupQuery): (r: Result<AudioSession>)
    ensures StreamRoute(s.mode).None? ==> r == Err(ValueError("Unsupported stream mode!"))
    ensures r.Ok? <==>
      && StreamRoute(s.mode).Some?
      && supported(s.format, s.channels, s.rate, DetectIdx(s.settings, devices, StreamRoute(s.mode).value.inputRole))
    ensures r.Err? ==> r.error.ValueError?
    ensures r.Ok? ==>
      && var route := StreamRoute(s.mode).value;
      && r.value.stream == Some(DeviceStream(
           s.format, s.channels, s.rate, s.settings.frameSize,
           route.enableInput, route.enableOutput,
           DetectIdx(s.settings, devices, route.inputRole),
           DetectIdx(s.settings, devices, route.outputRole),
           true, true))
      && r.value.hasPyAudio
      && r.value.(stream := s.stream, hasPyAudio := s.hasPyAudio) == s
  {
    match StreamRoute(s.mode)
    case None => Err(ValueError("Unsupported stream mode!"))
    case Some(route) =>
      var inputIdx := DetectIdx(s.settings, devices, route.inputRole);
      var outputIdx := DetectIdx(s.settings, devices, route.outputRole);
      if supported(s.format, s.channels, s.rate, inputIdx) then
        var stream := DeviceStream(s.format, s.channels, s.rate, s.settings.frameSize,
                                   route.enableInput, route.enableOutput, inputIdx, outputIdx, true, true);
        Ok(s.(stream := Some(stream), hasPyAudio := true))
      else
        Err(ValueError("Unsupported audio configuration!"))
  }

  /** File2BuildInOut asks PyAudio about the built-in input, a device its
      validation never looks up: when that device is missing, the query is
      made with index -1 and the stream opens only if PyAudio accepts it. */
  lemma File2BuildInOutQueriesBuildInInput(s: AudioSession, devices: seq<DeviceInfo>, supported: SetupQuery)
    requires s.mode == File2BuildInOut.Code()
    requires DetectIdx(s.settings, devices, BuildInInput) == -1
    ensures ValidateStreamMode(s.settings, devices, s.mode) <==> DetectIdx(s.settings, devices, BuildInOutput) >= 0
    ensures OpenStream(s, devices, supported).Ok? <==> supported(s.format, s.channels, s.rate, -1)
  {
    assert StreamRoute(s.mode).value.inputRole == BuildInInput;
  }

  function CloseSource(s: AudioSession): (r: Result<AudioSession>)
    ensures r.Ok? <==> s.source.Some?
    ensures r.Ok? ==> r.value == s.(source := Some(s.source.value.(isOpen := false)))
  {
    match s.source
    case None => Err(AttributeError("file_source"))
    case Some(src) => Ok(s.(source := Some(src.(isOpen := false))))
  }

  function CloseSink(s: AudioSession): (r: Result<AudioSession>)
    ensures r.Ok? <==> s.sink.Some?
    ensures r.Ok? ==> r.value == s.(sink := Some(s.sink.value.(isOpen := false)))
  {
    match s.sink
    case None => Err(AttributeError("output_wave_file"))
    case Some(sink) => Ok(s.(sink := Some(sink.(isOpen := false))))
  }

  /** The file part of the `close_stream` mode table, branch for branch
      (with the same two shadowed branches as configuration). */
  function CloseFiles(s: AudioSession): Result<AudioSession> {
    var mode := s.mode;
    if mode == BuildInIn2Out.Code() then Ok(s)
    else if mode == BuildInIn2VD.Code() then Ok(s)
    else if mode == VD2BuildInOut.Code() then Ok(s)
    else if mode == File2File.Code() then
      var s1 :- CloseSource(s);
      CloseSink(s1)
    else if mode == BuildInIn2File.Code() then CloseSink(s)
    else if mode == File2BuildInOut.Code() then CloseSource(s)
    else if mode == BuildInIn2File.Code() then CloseSink(s)
    else if mode == File2BuildInOut.Code() then CloseSource(s)
    else Ok(s)
  }

  /** Stopping and closing a stream; one already closed stays as it is. */
  function StopAndClose(st: DeviceStream): (r: DeviceStream)
    ensures !r.active && !r.isOpen
    ensures r.(active := st.active, isOpen := st.isOpen) == st
  {
    st.(active := false, isOpen := false)
  }

  /** `close_stream`: stop and close the stream if there is one, close the
      files the mode's table names, and terminate PyAudio, which exists only
      once `open_stream` ran. The statistics are printed, not changed. */
  function CloseStream(s: AudioSession): (r: Result<AudioSession>)
    // succeeds exactly when PyAudio exists and the files the mode closes exist
    ensures r.Ok? <==>
      && s.hasPyAudio
      && (s.mode in {File2File.Code(), File2BuildInOut.Code()} ==> s.source.Some?)
      && (s.mode in {File2File.Code(), BuildInIn2File.Code()} ==> s.sink.Some?)
    ensures r.Err? ==> r.error.AttributeError?
    // only the stream and the files change
    ensures r.Ok? ==>
      && r.value == s.(stream := r.value.stream, source := r.value.source, sink := r.value.sink)
      && r.value.stream == (if s.stream.Some? then Some(StopAndClose(s.stream.value)) else None)
    // the file part of the mode table: which files end closed
    ensures r.Ok? && s.mode in {File2File.Code(), File2BuildInOut.Code()} ==>
      r.value.source == Some(s.source.value.(isOpen := false))
    ensures r.Ok? && s.mode in {File2File.Code(), BuildInIn2File.Code()} ==>
      r.value.sink == Some(s.sink.value.(isOpen := false))
    ensures r.Ok? && s.mode !in {File2File.Code(), File2BuildInOut.Code()} ==> r.value.source == s.source
    ensures r.Ok? && s.mode !in {File2File.Code(), BuildInIn2File.Code()} ==> r.value.sink == s.sink
  {
    var stopped := s.(stream := if s.stream.Some? then Some(StopAndClose(s.stream.value)) else None);
    var closed :- CloseFiles(stopped);
    if closed.hasPyAudio then Ok(closed) else Err(AttributeError("p_audio"))
  }

  /** What `close_stream` promises a session built and opened by this
      module: it succeeds, releases every file configuration opened and the
      stream, keeps the statistics, and a second close changes nothing. */
  lemma CloseReleasesWhatConfigureOpened(
    mode: int, settings: Settings, inputFile: Option<WaveFileData>, outputPath: Option<string>,
    devices: seq<DeviceInfo>, supported: SetupQuery)
    requires Configure(mode, settings, inputFile, outputPath).Ok?
    requires OpenStream(Configure(mode, settings, inputFile, outputPath).value, devices, supported).Ok?
    ensures var started := OpenStream(Configure(mode, settings, inputFile, outputPath).value, devices, supported).value;
      && CloseStream(started).Ok?
      && var closed := CloseStream(started).value;
      && (closed.source.Some? ==> !closed.source.value.isOpen)
      && (closed.sink.Some? ==> !closed.sink.value.isOpen)
      && closed.source.Some? == started.source.Some?
      && closed.sink.Some? == started.sink.Some?
      && closed.stream.Some? && !closed.stream.value.active && !closed.stream.value.isOpen
      && closed.minElapsed == started.minElapsed && closed.maxElapsed == started.maxElapsed
      && CloseStream(closed) == Ok(closed)
  {
    var configured := Configure(mode, settings, inputFile, outputPath).value;
    var started := OpenStream(configured, devices, supported).value;
    assert StreamRoute(mode).Some?;
  }
}
